=== FILE: README.md ===
# Room booking rules, modelled in Dafny

This project models the core of a command-line room-booking utility
(`main.py`). The utility keeps two tables: `users` (id, name, email, phone,
with email and phone UNIQUE) and `booking` (room, start text, end text,
user id). It offers a menu with two flows:

* **check**: is a room occupied at an instant, and by whom?
* **book**: validate the room and the time range, refuse on a conflict with
  an existing booking, find or create the user by email, and append one
  booking.

Here the database is an immutable value, `Schema.Store`. Each flow is a pure
function from a store and the typed lines to an `Outcome` and a new store.

Timestamps get two treatments, because the code itself treats them two ways:

* `Timestamps.Parse` models `datetime.strptime(s, '%Y-%m-%d %H:%M')`. It
  accepts a four-digit year and one- or two-digit month, day, hour and
  minute, and requires a real calendar date. The validation compares these
  parsed values (main.py:73-75).
* The SQL queries compare the raw text as typed (main.py:79, main.py:138).
  `TextOrder.Lt` models SQLite's BINARY text order.

The two orders agree on canonical zero-padded text of a valid `datetime`, called a
stamp here (`Timestamps.Stamp`, `Timestamps.CanonicalOrder`).
So the main invariant, "no two bookings of a room overlap", is proved for time
lines that are canonical whenever they parse (`Safety.Admissible`). That
precondition is stated explicitly. `Scenarios.UnpaddedInputDoubleBooks` shows
why it is needed: a booking typed as `2024-01-01 9:00` to `2024-01-01 10:00` is
accepted, and afterwards a request for 09:30-09:45 in the same room passes the
conflict check. The same cause makes the conflict check refuse a request that
shares no instant with any booking, and makes the room check report a room free
at an unpadded instant inside a booking. The Findings section records all
three, together with corrected flows (`Safety.BookNormalized`,
`Safety.CheckNormalized`) that normalize the typed times first.

The three-clause conflict test (main.py:41-47) is proved to be plain
half-open intersection when both ranges are non-empty. One direction needs no
precondition: every intersecting booking trips a clause. The other direction
needs `start < end` on both sides. Two lemmas show the boundary cases where
empty ranges make the clauses and intersection differ. A canonical range that
passes main.py:75 is never empty in text order (`Safety.WellFormedText`). But
unpadded input can store a range that is empty or reversed in text order:
`2024-01-01 9:00` to `2024-01-01 10:00` passes main.py:75 although `9:00` sorts
after `10:00` as text (`Scenarios.UnpaddedSortsLate`).

Files, one module each: `wrappers.dfy`, `chars.dfy`, `text_order.dfy`,
`timestamps.dfy`, `py_int.dfy`, `intervals.dfy`, `schema.dfy`,
`user_directory.dfy`, `availability.dfy`, `booking_flow.dfy`, `safety.dfy`,
`menu.dfy`, `scenarios.dfy`.

## Model

| member | source | states |
|---|---|---|
| TextOrder.Lt | main.py:41-47 | SQLite's BINARY comparison of the stored and typed `TEXT` values, used by every `<`, `<=`, `>` and `>=` of both queries: at the first position where the two texts differ the smaller character sorts first, and a proper prefix sorts before the longer text |
| Timestamps.Field | main.py:13 | one- or two-digit field read as `%m`/`%d`/`%H`/`%M` read it: present exactly when a digit is at the position; two digits are taken exactly when a second digit follows, and the value is then the two-digit number, otherwise the single digit's value |
| Timestamps.Parse | main.py:11-15 | a successful parse is always a valid `datetime` (year 1..9999, real calendar day, hour < 24, minute < 60); failure is `None` |
| Timestamps.ParseCanonical | main.py:13 | on canonical `YYYY-MM-DD HH:MM` text, parsing reads the fixed two-digit fields and succeeds exactly when they form a valid `datetime` (the text is a stamp) |
| Timestamps.ParseFormat | main.py:11-15 | parsing the canonical text of any valid `datetime` returns that `datetime` |
| Timestamps.FormatFields | main.py:11-15 | a stamp is the canonical text of the `datetime` it spells, so each instant has exactly one stamp |
| Timestamps.FormatOrder | main.py:73-79 | for valid `datetime`s, the text order of their canonical texts is chronological order |
| Timestamps.CanonicalOrder | main.py:73-79 | on stamps, the text comparison the SQL uses agrees with the comparison of the `datetime`s they spell, which the validation uses, and equal text means equal instants |
| PyInt.ParseInt | main.py:62 | `int()` fails on more than 4300 digit characters (leading zeros counted, underscores not); otherwise it succeeds exactly when the text after the sign is a well-formed digit string, with that value, negated after `-` |
| PyInt.DigitsValueDefined | main.py:62 | the digits `int()` reads are exactly the grammar `digit (["_"] digit)*`: non-empty, digits and underscores only, a digit at both ends, no two underscores in a row |
| PyInt.OverlongIsNotInt | main.py:62-68 | a line of more than 4300 digits is not an integer, whatever its value |
| PyInt.ParseIntDecimal | main.py:62 | `int(str(n)) == n` for every integer `str` can write (at most 4300 digits), so each room number's decimal text is read back as that room |
| PyInt.EmptyIsNotInt | main.py:66-68 | an empty line is not an integer, so the flow reports invalid input |
| Intervals.ClauseConflict | main.py:41-47 | the three clauses of main.py:42, 44 and 46 as written, on SQLite text order: the booking starts at or before the requested start and ends after it; or it starts before the requested end and ends at or after it; or it lies within the request |
| Intervals.IntersectionIsConflict | main.py:41-47 | every booking whose range intersects the request trips one of the three clauses, with no precondition |
| Intervals.ConflictIsIntersection | main.py:41-47 | when both ranges are non-empty, each clause that fires implies intersection |
| Intervals.ConflictMatchesIntersection | main.py:41-47 | for non-empty ranges the three-clause test is exactly `es < ne && ee > ns` |
| Intervals.EmptyBookingAtRequestStart | main.py:46 | an empty stored range at the requested start trips the third clause although it intersects nothing |
| Intervals.EmptyRequestAtBookingStart | main.py:42 | an empty request at a booking's start trips the first clause although it intersects nothing |
| Intervals.OccupiesHalfOpen | main.py:136 | a non-empty booking occupies its start instant and not its end instant |
| Intervals.Occupies | main.py:136 | the point test as written, on SQLite text order: the booking starts at or before the checked text and ends after it |
| UserDirectory.FindByEmail | main.py:17-23 | finds a row with exactly that email, and finds nothing exactly when no row has that email |
| UserDirectory.FindById | main.py:39 | the join partner of a booking: a row with that id, and nothing exactly when no row has it |
| UserDirectory.FreshId | database.py:14 | the id AUTOINCREMENT hands out is positive and not held by any row |
| UserDirectory.CreateUser | main.py:25-32 | the insert fails exactly when the email or the phone is already taken, naming a taken one; on success exactly one row with a fresh id is appended |
| UserDirectory.CreatePreservesUnique | database.py:14-17 | a successful insert keeps ids, emails and phones unique |
| UserDirectory.CreatedUserIsFound | main.py:17-32 | looking up the email after creating the user returns exactly the row created |
| UserDirectory.FoundUserIsUnique | main.py:17-23 | with unique emails, the lookup returns the one row that has that email |
| UserDirectory.ResolveUser | main.py:85-98 | an existing email gives that user with the table unchanged; a new email either fails on a taken phone or appends exactly one user with the typed name, email and phone and a fresh id |
| UserDirectory.ResolvePreservesUnique | main.py:85-98 | finding or creating the user keeps the table's constraints |
| Availability.FirstRow | main.py:37-48 | the query returns no row exactly when no booking of the room passes the test and joins a user; otherwise it returns the name and end time of such a booking |
| Availability.FindConflict | main.py:34-57 | `is_room_free` reports nothing exactly when no booking of the room with a user trips the three clauses; otherwise it reports the occupant and end time of such a booking |
| Availability.FindOccupant | main.py:130-140 | the point query reports nothing exactly when no booking of the room holds `start <= t < end`; otherwise it reports the occupant and end time of such a booking |
| BookingFlow.TimesValid | main.py:73-75 | the negation of the test at main.py:75: both time lines parse and the parsed end is strictly after the parsed start |
| BookingFlow.RoomCheck | main.py:61-68 | the flow goes on exactly when the line is an integer in `ROOMS`; non-integers are invalid input and other integers are invalid room numbers |
| BookingFlow.BookRoom | main.py:59-111 | a bad room, unparseable times, `end <= start`, a conflict or a taken phone each end the flow with the store unchanged; a conflict is reported with a conflicting booking's occupant and end; on success exactly one booking `(room, start text, end text, user id)` is appended, nothing else in the booking table changes, and the user is the existing one for the email or exactly one new row |
| BookingFlow.CheckRoom | main.py:113-146 | the room check rejects a bad room or an unparseable time; otherwise it reports occupied, naming a booking that holds the instant, exactly when one exists, and free otherwise |
| Safety.EmptyValid | database.py:9-31 | the freshly created database satisfies the invariant |
| Safety.TimesValidIsRange | main.py:73-75 | on canonical text, the validation accepts exactly the ranges of two stamps with the start strictly earlier, and parsing yields the `datetime`s the stamps spell |
| Safety.WellFormedText | main.py:73-75 | a stored booking's end sorts after its start in text order too |
| Safety.BookKeepsDisjoint | main.py:79-83 | whatever form the typed times take, the pre-check keeps each room's stored ranges pairwise non-intersecting in text order |
| Safety.BookKeepsLinked | main.py:86-105 | every stored booking keeps a user row to join to |
| Safety.BookPreservesValid | main.py:59-111 | from a valid store, a booking attempt whose times are canonical whenever they parse leaves a valid store (unique users, linked bookings, rooms in `ROOMS`, `end > start`, no overlap per room) and keeps earlier bookings as they were |
| Safety.NoDoubleBooking | main.py:73-83 | in a valid store no two bookings of a room share an instant, measured in `datetime`s |
| Safety.ConflictIsClash | main.py:41-47 | for a stored booking and a request that are both stamp ranges, the three-clause test is exactly `datetime` intersection |
| Safety.BookRefusesExactlyOverlaps | main.py:79-83 | on a valid store a valid canonical request is refused as occupied exactly when some booking of the room intersects it |
| Safety.OccupiesIsChronological | main.py:136 | for a stored booking and a stamp, the point test is `start <= t < end` on `datetime`s |
| Safety.CheckAtStartIsOccupied | main.py:136-146 | the room check at a stored booking's start reports the room occupied, and the booking does not hold its own end instant |
| Safety.OccupantIsUnique | main.py:132-139 | in a valid store at most one booking of a room holds any instant, so `LIMIT 1` loses nothing |
| Safety.Normalize | main.py:70-75 | the normalized time line parses exactly as the typed one, and is canonical whenever it parses |
| Safety.BookNormalized | main.py:59-111 | booking with normalized time lines rejects exactly the times the flow as written rejects; when it books, the times were valid and the normalized texts of both are canonical (what is stored is stated by `NormalizedBookingStoresStamps`) |
| Safety.NormalizedBookingStoresStamps | main.py:102-105 | a normalized booking appends the room, the canonical texts of the typed times and the user id |
| Safety.NormalizedIsRange | main.py:73-75 | valid time lines normalize to a stamp range whose fields are the parsed `datetime`s |
| Safety.NormalizedIntersection | main.py:41-47 | against a stored booking, text intersection with the normalized times is `datetime` intersection with the typed ones |
| Safety.NormalizedClashes | main.py:41-47 | on well-formed bookings, some booking of the room intersects the normalized range in text exactly when one clashes with the typed range in `datetime` terms |
| Safety.NormalizedRefusesExactlyOverlaps | main.py:79-83 | with normalized times, a valid request is refused as occupied exactly when a booking of the room shares an instant with it in `datetime` terms, whatever form the times were typed in |
| Safety.CheckNormalized | main.py:124-127 | after a valid room line, the room check with a normalized time line reports an invalid date exactly when the typed line does not parse |
| Safety.NormalizedCheckIsChronological | main.py:130-146 | on a valid store the normalized check reports occupied exactly when a booking of the room holds the instant in `datetime` terms |
| Safety.NormalizedBookingPreservesValid | main.py:59-111 | with normalized time lines every booking attempt, in any form `strptime` accepts, keeps the store valid |
| Menu.Step | main.py:155-164 | `'1'` runs the room check without writing, `'2'` runs the booking flow, `'0'` says goodbye, any other line is an invalid choice |
| Menu.StepEffects | main.py:150-164 | only `'2'` can change the store, and the loop stops exactly after `'0'` or a booking that raised an IntegrityError |
| Menu.StepPreservesValid | main.py:150-164 | every pass of the loop keeps the store valid, given times that are canonical whenever they parse |
| Menu.RunPreservesValid | main.py:150-164 | any sequence of passes from a valid store ends in a valid store |
| Scenarios.FirstBookingCreatesUser | main.py:85-111 | the first booking of room 3 from 10:00 to 11:00 on an empty database succeeds, creates Alice with id 1 and stores exactly that booking |
| Scenarios.SameSlotRefused | main.py:79-83 | the same room and times for another user are refused as occupied by Alice until 11:00 |
| Scenarios.CheckInsideBooking | main.py:136-144 | a check at 10:30 reports Alice until 11:00 |
| Scenarios.CheckAtEndIsFree | main.py:136-146 | a check at exactly 11:00 finds the room free |
| Scenarios.RoomNineRejected | main.py:63-65 | room 9 is an invalid room number in both flows, and the booking flow leaves the store unchanged |
| Scenarios.OverlongRoomRejected | main.py:61-68 | a room line of 4300 zeros and then `3` is invalid input in both flows, and the booking flow leaves the store unchanged |
| Scenarios.UnpaddedHourParses | main.py:13 | `strptime` accepts an hour without its leading zero and reads the same `datetime` |
| Scenarios.UnpaddedAccepted | main.py:73-77 | a booking typed as `9:00` to `10:00` passes validation and is stored as typed |
| Scenarios.PaddedMissesUnpadded | main.py:41-47 | none of the three clauses fires for 09:30-09:45 against the stored `9:00`-`10:00` text |
| Scenarios.PaddedAccepted | main.py:79-105 | the 09:30-09:45 request for the same room is therefore booked |
| Scenarios.AfterPaddedClashes | main.py:73-83 | the two bookings of room 1 stored by those requests both pass validation and share an instant in `datetime` terms |
| Scenarios.UnpaddedInputDoubleBooks | main.py:70-105 | booking `9:00` to `10:00` and then `09:30` to `09:45` in room 1 from an empty database leaves two bookings that share the minutes from 09:30 to 09:45 |
| Scenarios.UnpaddedNormalizedAccepted | main.py:70-105 | with normalized time lines, the same `9:00` to `10:00` request on an empty database is booked for Alice and stores the canonical `09:00` to `10:00` |
| Scenarios.NormalizedRefusesPadded | main.py:79-83 | the 09:30-09:45 request that follows is then refused as occupied by Alice until 10:00 and nothing is stored, so that run no longer double-books |
| Scenarios.UnpaddedSortsLate | main.py:41-47 | in text order an unpadded `9:mm` on 2024-01-01 sorts after every padded `09:..` and `10:..` of 2024-01-01 |
| Scenarios.EarlyRequestTripsClause | main.py:41-47 | the unpadded request `9:00` to `9:30` trips the three-clause test against a booking from 10:00 to the next midnight |
| Scenarios.UnpaddedRequestRefused | main.py:79-83 | that request is refused as occupied by Alice although the two ranges share no instant |
| Scenarios.UnpaddedCheckMisses | main.py:130-146 | a check typed as `9:30` inside a canonical 09:00-10:00 booking reports the room free |

## Left out

- `database.py` connection handling, `create_tables` and the per-call open, commit and close: the store is a value, and `Schema.Empty` stands for a freshly created database.
- Terminal I/O (`get_input`, `print`): each flow takes the typed lines, already stripped, as parameters. It returns an `Outcome` naming the message printed. `Booked` carries the user whose email and phone the notification lines (main.py:110-111) show.
- `Timestamps.Parse` leaves out three things `strptime` also accepts: several whitespace characters where the format has one space (the format's space matches `\s+`), a day written as a space and a digit, and non-ASCII decimal digits.
- `PyInt.ParseInt` leaves out non-ASCII decimal digits. It fixes the digit limit at CPython's default of 4300: a limit changed with `sys.set_int_max_str_digits` or `PYTHONINTMAXSTRDIGITS`, and older interpreters without the limit, are not modelled.
- AUTOINCREMENT values: `FreshId` returns one more than the largest id, which is what AUTOINCREMENT hands out while no row has been deleted (the program never deletes). The general contracts rely only on freshness; the concrete runs rely on the ids 1 and 2 it gives. The `booking.id` column is not modelled; a booking's position in the sequence stands for it.
- Row order: each query returns the first qualifying booking in sequence order. The contracts only promise that some qualifying booking is reported, because `LIMIT 1` without `ORDER BY` fixes no order.
- UserDirectory.CreateUser: when both the email and the phone are taken the model reports `DuplicateEmail`. Nothing in the program fixes which UNIQUE violation SQLite reports then, so that tie-break is the model's choice. The booking flow never reaches it, because it only inserts after the email lookup found nothing.
- Storage errors other than the UNIQUE violations on `users`, such as I/O failures or a locked database: not modelled.
- The check-then-insert race between main.py:79 and main.py:102: the model is sequential.
- The `while True` loop of `main`: `Menu.Step` is one pass. `Menu.Run` is used only in a lemma. It applies passes in sequence and ignores the stop after `'0'` or a crash; the invariant holds either way.
- The prompts (main.py:70-71) show `YYYY-MM-DD HH:MM`, but `strptime` also accepts unpadded fields, and the model accepts them too. `create_user` alone fails on a taken email (`UserDirectory.CreateUser`), but in the booking flow only a taken phone can fail, because the flow looks the email up first (`BookRoom` reports this as `Aborted(DuplicatePhone)`).

## Findings

| source | as written | input that shows it | evidently intended | confidence | as-written member | corrected member |
|---|---|---|---|---|---|---|
| main.py:70-105 | the typed time text is validated as a `datetime` but compared and stored as typed, and `strptime` accepts unpadded fields, so stored text order need not be chronological | book room 1 from `2024-01-01 9:00` to `2024-01-01 10:00`, then from `2024-01-01 09:30` to `2024-01-01 09:45`: both are accepted and the two bookings share 09:30-09:45 | compare and store the canonical text of the parsed times, so that no two bookings of a room overlap whatever form the times are typed in | medium; not executed | Scenarios.UnpaddedInputDoubleBooks | Safety.NormalizedBookingPreservesValid |
| main.py:79-83 | the conflict query compares unpadded typed text with stored text, so it can find a conflict where the ranges share no instant | with room 3 booked from `2024-01-01 10:00` to `2024-01-02 00:00`, request `2024-01-01 9:00` to `2024-01-01 9:30`: refused as occupied | refuse a request exactly when it shares an instant with a booking of the room | medium; not executed | Scenarios.UnpaddedRequestRefused | Safety.NormalizedRefusesExactlyOverlaps |
| main.py:124-140 | the point query compares the typed time text with the stored text, so an unpadded instant inside a booking is not found | with room 3 booked from `2024-01-01 09:00` to `2024-01-01 10:00`, check `2024-01-01 9:30`: reported free | report the room occupied exactly when a booking of the room holds the instant | medium; not executed | Scenarios.UnpaddedCheckMisses | Safety.NormalizedCheckIsChronological |

=== FILE: availability.dfy ===
/**
 * The two availability queries: the conflict query of `is_room_free`
 * (main.py:34-57) and the point query of `check_room` (main.py:130-140).
 * Both join `booking` to `users` on `user_id`, filter by room and a test on
 * the stored text, and keep the first row (`LIMIT 1`).
 */
module Availability {
  import opened Wrappers
  import opened Schema
  import opened UserDirectory
  import opened Intervals

  /** The `(users.name, booking.end_time)` row a query returns. */
  datatype Occupant = Occupant(name: string, until: string)

  /** The row a booking yields when its user joins. */
  function RowOf(users: seq<User>, b: Booking): (row: Occupant)
    requires HasUser(users, b.userId)
  {
    Occupant(FindById(users, b.userId).value.name, b.end)
  }

  /** A booking that the WHERE clause `hit` keeps for `room` and that survives the join. */
  predicate Selected(users: seq<User>, b: Booking, room: int, hit: Booking -> bool) {
    b.room == room && hit(b) && HasUser(users, b.userId)
  }

  /** The first selected row in row order, or none. */
  function FirstRow(users: seq<User>, bs: seq<Booking>, room: int, hit: Booking -> bool)
    : (r: Option<Occupant>)
    ensures r.None? <==> forall i :: 0 <= i < |bs| ==> !Selected(users, bs[i], room, hit)
    ensures r.Some? ==>
      exists i :: 0 <= i < |bs| && Selected(users, bs[i], room, hit) && r.value == RowOf(users, bs[i])
  {
    if |bs| == 0 then None
    else if Selected(users, bs[0], room, hit) then Some(RowOf(users, bs[0]))
    else
      var r := FirstRow(users, bs[1..], room, hit);
      assert forall i :: 1 <= i < |bs| ==> bs[i] == bs[1..][i - 1];
      r
  }

  /** Some booking of `room` with a user trips the three-clause test against `[start, end)`. */
  predicate Conflicting(s: Store, room: int, start: string, end: string) {
    exists i :: 0 <= i < |s.bookings| && s.bookings[i].room == room
      && ClauseConflict(s.bookings[i].start, s.bookings[i].end, start, end)
      && HasUser(s.users, s.bookings[i].userId)
  }

  /** `is_room_free(room, start, end)`: the occupant of a conflicting booking, if any. */
  function FindConflict(s: Store, room: int, start: string, end: string): (r: Option<Occupant>)
    ensures r.None? <==> !Conflicting(s, room, start, end)
    ensures r.Some? ==>
      exists i :: 0 <= i < |s.bookings| && s.bookings[i].room == room
        && ClauseConflict(s.bookings[i].start, s.bookings[i].end, start, end)
        && HasUser(s.users, s.bookings[i].userId)
        && r.value == RowOf(s.users, s.bookings[i])
  {
    FirstRow(s.users, s.bookings, room, (b: Booking) => ClauseConflict(b.start, b.end, start, end))
  }

  /** Some booking of `room` with a user occupies the instant `t`. */
  predicate OccupiedAt(s: Store, room: int, t: string) {
    exists i :: 0 <= i < |s.bookings| && s.bookings[i].room == room
      && Occupies(s.bookings[i].start, s.bookings[i].end, t)
      && HasUser(s.users, s.bookings[i].userId)
  }

  /** The point query of `check_room`: the occupant of a booking holding `t`, if any. */
  function FindOccupant(s: Store, room: int, t: string): (r: Option<Occupant>)
    ensures r.None? <==> !OccupiedAt(s, room, t)
    ensures r.Some? ==>
      exists i :: 0 <= i < |s.bookings| && s.bookings[i].room == room
        && Occupies(s.bookings[i].start, s.bookings[i].end, t)
        && HasUser(s.users, s.bookings[i].userId)
        && r.value == RowOf(s.users, s.bookings[i])
  {
    FirstRow(s.users, s.bookings, room, (b: Booking) => Occupies(b.start, b.end, t))
  }
}

=== FILE: booking_flow.dfy ===
/**
 * The two interactive flows, `book_room` (main.py:59-111) and `check_room`
 * (main.py:113-146), as pure transitions. The lines the user types are
 * parameters (already stripped, as `get_input` returns them); what the flow
 * prints is the `Outcome`.
 */
module BookingFlow {
  import opened Wrappers
  import opened PyInt
  import opened Timestamps
  import opened Schema
  import opened UserDirectory
  import opened Intervals
  import opened Availability

  /** `ROOMS` (main.py:5). */
  const Rooms: seq<int> := [1, 2, 3, 4, 5]

  /** What a flow, or the menu, reports. */
  datatype Outcome =
    | InvalidInput                          // "Invalid input.": the room is not an integer
    | InvalidRoom                           // "Invalid room number."
    | InvalidTimes                          // booking: unparseable time, or end not after start
    | InvalidDate                           // room check: unparseable time
    | Occupied(name: string, until: string) // "Room is occupied by <name> until <until>"
    | Free                                  // "Room is free at that time."
    | Booked(user: User)                    // "Booking successful!", notifying user's email and phone
    | Aborted(error: DbError)               // an IntegrityError nothing catches: the program stops
    | Goodbye                               // menu choice 0
    | InvalidChoice                         // "Invalid choice."

  datatype Transition = Transition(outcome: Outcome, store: Store)

  /** The lines the booking flow reads: room, start, end, email, and for a new user name and phone. */
  datatype BookInput = BookInput(room: string, start: string, end: string,
                                 email: string, name: string, phone: string)

  /** The room line names one of `ROOMS`. */
  predicate RoomOk(text: string) {
    ParseInt(text).Some? && ParseInt(text).value in Rooms
  }

  /** Both lines parse and the end is strictly after the start (the test of main.py:75 negated). */
  predicate TimesValid(start: string, end: string) {
    Parse(start).Some? && Parse(end).Some? && Before(Parse(start).value, Parse(end).value)
  }

  /** The room flow's first step, shared by both flows (main.py:61-68, 115-122). */
  function RoomCheck(text: string): (r: Option<Outcome>)
    ensures r.None? <==> RoomOk(text)
    ensures r == Some(InvalidInput) <==> ParseInt(text).None?
    ensures r.Some? ==> r == Some(InvalidInput) || r == Some(InvalidRoom)
  {
    match ParseInt(text)
    case None => Some(InvalidInput)
    case Some(n) => if n in Rooms then None else Some(InvalidRoom)
  }

  function BookRoom(s: Store, input: BookInput): (t: Transition)
    ensures t.outcome.InvalidInput? <==> ParseInt(input.room).None?
    ensures t.outcome.InvalidRoom? <==> ParseInt(input.room).Some? && !RoomOk(input.room)
    ensures t.outcome.InvalidTimes? <==> RoomOk(input.room) && !TimesValid(input.start, input.end)
    ensures t.outcome.Occupied? <==>
      && RoomOk(input.room) && TimesValid(input.start, input.end)
      && Conflicting(s, ParseInt(input.room).value, input.start, input.end)
    ensures t.outcome.Occupied? ==>
      exists i :: 0 <= i < |s.bookings| && s.bookings[i].room == ParseInt(input.room).value
        && ClauseConflict(s.bookings[i].start, s.bookings[i].end, input.start, input.end)
        && HasUser(s.users, s.bookings[i].userId)
        && Occupant(t.outcome.name, t.outcome.until) == RowOf(s.users, s.bookings[i])
    ensures t.outcome.Aborted? <==>
      && RoomOk(input.room) && TimesValid(input.start, input.end)
      && !Conflicting(s, ParseInt(input.room).value, input.start, input.end)
      && !EmailTaken(s.users, input.email) && PhoneTaken(s.users, input.phone)
    ensures t.outcome.Aborted? ==> t.outcome.error == DuplicatePhone
    ensures t.outcome.Booked? ==>
      && RoomOk(input.room) && TimesValid(input.start, input.end)
      && !Conflicting(s, ParseInt(input.room).value, input.start, input.end)
      && t.outcome.user.email == input.email
      && t.outcome.user in t.store.users
      && t.store.bookings == s.bookings
           + [Booking(ParseInt(input.room).value, input.start, input.end, t.outcome.user.id)]
    ensures t.outcome.Booked? && EmailTaken(s.users, input.email) ==>
      t.store.users == s.users && t.outcome.user in s.users
    ensures t.outcome.Booked? && !EmailTaken(s.users, input.email) ==>
      && t.outcome.user == User(t.outcome.user.id, input.name, input.email, input.phone)
      && !HasUser(s.users, t.outcome.user.id)
      && t.store.users == s.users + [t.outcome.user]
    ensures !t.outcome.Booked? ==> t.store == s
    ensures !t.outcome.Free? && !t.outcome.InvalidDate? && !t.outcome.Goodbye? && !t.outcome.InvalidChoice?
  {
    match RoomCheck(input.room)
    case Some(rejected) => Transition(rejected, s)
    case None =>
      var room := ParseInt(input.room).value;
      if !TimesValid(input.start, input.end) then Transition(InvalidTimes, s)
      else
        match FindConflict(s, room, input.start, input.end)
        case Some(o) => Transition(Occupied(o.name, o.until), s)
        case None =>
          match ResolveUser(s.users, input.email, input.name, input.phone)
          case Failure(e) => Transition(Aborted(e), s)
          case Success((users', u)) =>
            Transition(Booked(u), Store(users', s.bookings + [Booking(room, input.start, input.end, u.id)]))
  }

  /** `check_room`: the occupant of `room` at the instant `time`, or free. It never writes. */
  function CheckRoom(s: Store, room: string, time: string): (o: Outcome)
    ensures o.InvalidInput? <==> ParseInt(room).None?
    ensures o.InvalidRoom? <==> ParseInt(room).Some? && !RoomOk(room)
    ensures o.InvalidDate? <==> RoomOk(room) && Parse(time).None?
    ensures o.Occupied? <==> RoomOk(room) && Parse(time).Some? && OccupiedAt(s, ParseInt(room).value, time)
    ensures o.Occupied? ==>
      exists i :: 0 <= i < |s.bookings| && s.bookings[i].room == ParseInt(room).value
        && Occupies(s.bookings[i].start, s.bookings[i].end, time)
        && HasUser(s.users, s.bookings[i].userId)
        && Occupant(o.name, o.until) == RowOf(s.users, s.bookings[i])
    ensures o.Free? <==> RoomOk(room) && Parse(time).Some? && !OccupiedAt(s, ParseInt(room).value, time)
  {
    match RoomCheck(room)
    case Some(rejected) => rejected
    case None =>
      if Parse(time).None? then InvalidDate
      else
        match FindOccupant(s, ParseInt(room).value, time)
        case Some(occ) => Occupied(occ.name, occ.until)
        case None => Free
  }
}

=== FILE: chars.dfy ===
/** ASCII decimal digits, as the timestamp and integer parsers read them. */
module Chars {

  predicate IsDigit(c: char) {
    '0' <= c <= '9'
  }

  function DigitValue(c: char): (d: nat)
    requires IsDigit(c)
    ensures d <= 9
  {
    c as int - '0' as int
  }

  /** The digit character for `d`; the inverse of `DigitValue`. */
  function DigitChar(d: nat): (c: char)
    requires d <= 9
    ensures IsDigit(c) && DigitValue(c) == d
  {
    ('0' as int + d) as char
  }

  lemma DigitCharOfValue(c: char)
    requires IsDigit(c)
    ensures DigitChar(DigitValue(c)) == c
  {
  }

  /** Two digits side by side, read as a number in 0..99. */
  function Two(hi: char, lo: char): (n: nat)
    requires IsDigit(hi) && IsDigit(lo)
    ensures n < 100
  {
    10 * DigitValue(hi) + DigitValue(lo)
  }
}

=== FILE: intervals.dfy ===
/**
 * The two tests the SQL queries apply to a booking's stored start and end
 * text: the three-clause range test of the conflict query (main.py:41-47)
 * and the point test of the room check (main.py:136).
 */
module Intervals {
  import opened TextOrder

  /**
   * The conflict query's WHERE clause for an existing booking `[es, ee)` and
   * a requested `[ns, ne)`, clause by clause as main.py:42, 44 and 46 write it.
   */
  predicate ClauseConflict(es: string, ee: string, ns: string, ne: string) {
    || (Le(es, ns) && Lt(ns, ee))
    || (Lt(es, ne) && Le(ne, ee))
    || (Le(ns, es) && Le(ee, ne))
  }

  /** Half-open intervals `[es, ee)` and `[ns, ne)` share an instant. */
  predicate Intersects(es: string, ee: string, ns: string, ne: string) {
    Lt(es, ne) && Lt(ns, ee)
  }

  /** The room check's test: `start <= t < end`. */
  predicate Occupies(start: string, end: string, t: string) {
    Le(start, t) && Lt(t, end)
  }

  /** Every intersecting booking trips one of the three clauses, whatever the intervals. */
  lemma IntersectionIsConflict(es: string, ee: string, ns: string, ne: string)
    ensures Intersects(es, ee, ns, ne) ==> ClauseConflict(es, ee, ns, ne)
  {
    LtTrichotomy(es, ns);
    LtTrichotomy(ee, ne);
  }

  /** The clauses flag only intersecting bookings, once both intervals are non-empty. */
  lemma ConflictIsIntersection(es: string, ee: string, ns: string, ne: string)
    requires Lt(es, ee) && Lt(ns, ne)
    ensures ClauseConflict(es, ee, ns, ne) ==> Intersects(es, ee, ns, ne)
  {
    if Le(es, ns) && Lt(ns, ee) {
      LtLeTransitive(es, ns, ne);
    } else if Lt(es, ne) && Le(ne, ee) {
      LtLeTransitive(ns, ne, ee);
    } else if Le(ns, es) && Le(ee, ne) {
      LtLeTransitive(es, ee, ne);
      LtLeTransitive(ns, es, ee);
    }
  }

  /** For well-formed intervals the three-clause test is exactly half-open intersection. */
  lemma ConflictMatchesIntersection(es: string, ee: string, ns: string, ne: string)
    requires Lt(es, ee) && Lt(ns, ne)
    ensures ClauseConflict(es, ee, ns, ne) <==> Intersects(es, ee, ns, ne)
  {
    IntersectionIsConflict(es, ee, ns, ne);
    ConflictIsIntersection(es, ee, ns, ne);
  }

  /** Without `es < ee` the clauses differ: an empty booking at the requested start is flagged. */
  lemma EmptyBookingAtRequestStart(x: string, ne: string)
    requires Le(x, ne)
    ensures ClauseConflict(x, x, x, ne) && !Intersects(x, x, x, ne)
  {
    LtIrreflexive(x);
  }

  /** Without `ns < ne` the clauses differ: an empty request at a booking's start is flagged. */
  lemma EmptyRequestAtBookingStart(y: string, ee: string)
    requires Lt(y, ee)
    ensures ClauseConflict(y, ee, y, y) && !Intersects(y, ee, y, y)
  {
    LtIrreflexive(y);
  }

  /** The start instant of a non-empty booking is occupied, its end instant is not. */
  lemma OccupiesHalfOpen(start: string, end: string)
    requires Lt(start, end)
    ensures Occupies(start, end, start)
    ensures !Occupies(start, end, end)
  {
    LtIrreflexive(end);
    LtAsymmetric(start, end);
  }
}

=== FILE: menu.dfy ===
/** One pass of the menu loop of `main` (main.py:150-164). */
module Menu {
  import opened Schema
  import opened BookingFlow
  import opened Safety

  datatype Action = CheckAction | BookAction | ExitAction | InvalidAction

  /** The menu choice line. */
  function Choose(choice: string): (a: Action) {
    if choice == "1" then CheckAction
    else if choice == "2" then BookAction
    else if choice == "0" then ExitAction
    else InvalidAction
  }

  /** Every line a pass may read after the choice; each flow reads only its own. */
  datatype Lines = Lines(room: string, time: string, start: string, end: string,
                         email: string, name: string, phone: string)

  function BookLines(lines: Lines): (input: BookInput) {
    BookInput(lines.room, lines.start, lines.end, lines.email, lines.name, lines.phone)
  }

  /** One choice and the flow it selects. */
  function Step(s: Store, choice: string, lines: Lines): (t: Transition)
    ensures choice == "1" ==> t == Transition(CheckRoom(s, lines.room, lines.time), s)
    ensures choice == "2" ==> t == BookRoom(s, BookLines(lines))
    ensures choice == "0" ==> t == Transition(Goodbye, s)
    ensures choice !in {"0", "1", "2"} ==> t == Transition(InvalidChoice, s)
  {
    match Choose(choice)
    case CheckAction => Transition(CheckRoom(s, lines.room, lines.time), s)
    case BookAction => BookRoom(s, BookLines(lines))
    case ExitAction => Transition(Goodbye, s)
    case InvalidAction => Transition(InvalidChoice, s)
  }

  /** The loop stops after "0", or when an uncaught IntegrityError ends the program. */
  predicate Stops(o: Outcome) {
    o.Goodbye? || o.Aborted?
  }

  /** Only choice "2" can change the store, and the loop goes on except after "0" or a crash. */
  lemma StepEffects(s: Store, choice: string, lines: Lines)
    ensures Step(s, choice, lines).store != s ==> choice == "2"
    ensures Stops(Step(s, choice, lines).outcome) <==>
      choice == "0" || (choice == "2" && BookRoom(s, BookLines(lines)).outcome.Aborted?)
  {
  }

  /** Every pass of the loop keeps the store valid, given time lines canonical whenever they parse. */
  lemma StepPreservesValid(s: Store, choice: string, lines: Lines)
    requires Valid(s)
    requires Admissible(lines.start) && Admissible(lines.end)
    ensures Valid(Step(s, choice, lines).store)
  {
    if choice == "2" {
      BookPreservesValid(s, BookLines(lines));
    }
  }

  /** A run of passes from a valid store, as a sequence of choices and their lines. */
  function Run(s: Store, steps: seq<(string, Lines)>): (r: Store)
    decreases |steps|
  {
    if |steps| == 0 then s
    else Run(Step(s, steps[0].0, steps[0].1).store, steps[1..])
  }

  /** Any run from a valid store (the empty database among them), with admissible time lines, ends in a valid store. */
  lemma {:induction false} RunPreservesValid(s: Store, steps: seq<(string, Lines)>)
    requires Valid(s)
    requires forall k :: 0 <= k < |steps| ==> Admissible(steps[k].1.start) && Admissible(steps[k].1.end)
    ensures Valid(Run(s, steps))
    decreases |steps|
  {
    if |steps| > 0 {
      StepPreservesValid(s, steps[0].0, steps[0].1);
      RunPreservesValid(Step(s, steps[0].0, steps[0].1).store, steps[1..]);
    }
  }
}

=== FILE: py_int.dfy ===
/**
 * Python's `int(text)` on a line of input (main.py:62 and main.py:116): an
 * optional sign, then ASCII digits where single underscores may separate
 * digits, and at most `MaxStrDigits` digits. `None` stands for the
 * `ValueError` the flows catch.
 */
module PyInt {
  import opened Wrappers
  import opened Chars

  /** The digits part: non-empty, ends in a digit, and each `_` sits between two digits. */
  function DigitsValue(s: string): (r: Option<nat>)
    decreases |s|
  {
    if |s| == 0 || !IsDigit(s[|s| - 1]) then None
    else if |s| == 1 then Some(DigitValue(s[0]))
    else
      var init := if s[|s| - 2] == '_' then s[..|s| - 2] else s[..|s| - 1];
      match DigitsValue(init)
      case None => None
      case Some(v) => Some(10 * v + DigitValue(s[|s| - 1]))
  }

  /**
   * The digit part `int()` accepts, in the grammar's terms `digit (["_"] digit)*`:
   * non-empty, digits and underscores only, a digit at both ends, and no two
   * underscores in a row.
   */
  predicate DigitString(s: string) {
    && |s| > 0 && IsDigit(s[0]) && IsDigit(s[|s| - 1])
    && (forall i :: 0 <= i < |s| ==> IsDigit(s[i]) || s[i] == '_')
    && (forall i :: 0 <= i < |s| - 1 ==> s[i] == '_' ==> s[i + 1] != '_')
  }

  /** `DigitsValue` reads exactly the digit strings of the grammar. */
  lemma {:induction false} DigitsValueDefined(s: string)
    ensures DigitsValue(s).Some? <==> DigitString(s)
    decreases |s|
  {
    if |s| >= 2 && IsDigit(s[|s| - 1]) {
      var init := if s[|s| - 2] == '_' then s[..|s| - 2] else s[..|s| - 1];
      DigitsValueDefined(init);
      assert forall i :: 0 <= i < |init| ==> init[i] == s[i];
      if DigitString(s) && s[|s| - 2] == '_' {
        assert s[|s| - 3] != '_';
      }
    }
  }

  /**
   * `sys.int_info.default_max_str_digits`: since CPython 3.11 (and the
   * 3.7.14, 3.8.14, 3.9.14 and 3.10.7 security releases) `int()` raises
   * `ValueError` on decimal text with more digits than this.
   */
  const MaxStrDigits := 4300

  /** The digit characters the limit counts: leading zeros count, underscores do not. */
  function DigitCount(s: string): (n: nat)
    decreases |s|
    ensures n <= |s|
  {
    if |s| == 0 then 0 else DigitCount(s[..|s| - 1]) + (if s[|s| - 1] == '_' then 0 else 1)
  }

  /** The text after an optional leading sign. */
  function Unsigned(s: string): (r: string) {
    if |s| > 0 && (s[0] == '-' || s[0] == '+') then s[1..] else s
  }

  function ParseInt(s: string): (r: Option<int>)
    ensures DigitCount(Unsigned(s)) > MaxStrDigits ==> r.None?
    ensures r.Some? <==> DigitString(Unsigned(s)) && DigitCount(Unsigned(s)) <= MaxStrDigits
    ensures r.Some? ==> DigitsValue(Unsigned(s)).Some?
    ensures r.Some? && s[0] == '-' ==> r.value == -(DigitsValue(Unsigned(s)).value as int)
    ensures r.Some? && s[0] != '-' ==> r.value == DigitsValue(Unsigned(s)).value
  {
    var body := Unsigned(s);
    DigitsValueDefined(body);
    if DigitCount(body) > MaxStrDigits then None
    else
      match DigitsValue(body)
      case None => None
      case Some(v) =>
        var n: int := if s[0] == '-' then -(v as int) else v;
        Some(n)
  }

  /** Text without underscores counts every character toward the limit. */
  lemma {:induction false} DigitCountPlain(s: string)
    requires forall i :: 0 <= i < |s| ==> s[i] != '_'
    ensures DigitCount(s) == |s|
    decreases |s|
  {
    if |s| > 0 {
      DigitCountPlain(s[..|s| - 1]);
    }
  }

  /** More than `MaxStrDigits` digit characters is a `ValueError`, whatever their value. */
  lemma OverlongIsNotInt(s: string)
    requires forall i :: 0 <= i < |s| ==> IsDigit(s[i])
    requires |s| > MaxStrDigits
    ensures ParseInt(s) == None
  {
    DigitCountPlain(s);
  }

  /** The decimal digits of `n`, most significant first, with no leading zero. */
  function Digits(n: nat): (s: string)
    decreases n
    ensures |s| > 0 && IsDigit(s[0]) && IsDigit(s[|s| - 1])
    ensures forall i :: 0 <= i < |s| ==> IsDigit(s[i])
  {
    if n < 10 then [DigitChar(n)] else Digits(n / 10) + [DigitChar(n % 10)]
  }

  /** `str(n)` for an integer `n`. */
  function Decimal(n: int): (r: string) {
    if n < 0 then "-" + Digits(-n) else Digits(n)
  }

  lemma {:induction false} DigitsRoundTrip(n: nat)
    ensures DigitsValue(Digits(n)) == Some(n)
    decreases n
  {
    if n >= 10 {
      var s := Digits(n);
      DigitsRoundTrip(n / 10);
      assert s[..|s| - 1] == Digits(n / 10);
      assert s[|s| - 2] == Digits(n / 10)[|Digits(n / 10)| - 1];
    }
  }

  /**
   * `int(str(n)) == n` for every integer `str` can write: beyond
   * `MaxStrDigits` digits `str(n)` itself raises `ValueError`.
   */
  lemma ParseIntDecimal(n: int)
    requires |Digits(if n < 0 then -n else n)| <= MaxStrDigits
    ensures ParseInt(Decimal(n)) == Some(n)
  {
    var m := if n < 0 then -n else n;
    DigitsRoundTrip(m);
    DigitCountPlain(Digits(m));
    if n < 0 {
      assert Decimal(n)[1..] == Digits(m);
    } else {
      assert Digits(m)[0] != '-' && Digits(m)[0] != '+';
    }
  }

  /** Empty input (a blank line, or the end of standard input) is not an integer. */
  lemma EmptyIsNotInt()
    ensures ParseInt("") == None
  {
  }
}

=== FILE: safety.dfy ===
/**
 * The invariant the booking flow keeps although only its pre-check enforces
 * it: no two bookings of a room overlap. Stored times are compared as text
 * (main.py:79, 138) but validated as `datetime`s (main.py:73-75); the two
 * orders agree for canonical zero-padded text, which is why the invariant
 * holds only for input that is canonical whenever it parses.
 */
module Safety {
  import opened Wrappers
  import opened TextOrder
  import opened Timestamps
  import opened PyInt
  import opened Schema
  import opened UserDirectory
  import opened Intervals
  import opened Availability
  import opened BookingFlow

  /** Two stamps, the first strictly earlier: the time range a canonical booking stores. */
  predicate Range(start: string, end: string) {
    Stamp(start) && Stamp(end) && Before(CanonicalFields(start), CanonicalFields(end))
  }

  /** What every stored booking satisfies: a room of `ROOMS` and a canonical, non-empty time range. */
  predicate WellFormed(b: Booking) {
    b.room in Rooms && Range(b.start, b.end)
  }

  /** Two bookings of one room whose stored ranges intersect in text order. */
  predicate Overlap(a: Booking, b: Booking) {
    a.room == b.room && Intersects(a.start, a.end, b.start, b.end)
  }

  predicate Disjoint(bs: seq<Booking>) {
    forall i, j :: 0 <= i < j < |bs| ==> !Overlap(bs[i], bs[j])
  }

  predicate Valid(s: Store) {
    && UniqueUsers(s.users)
    && Linked(s)
    && (forall i :: 0 <= i < |s.bookings| ==> WellFormed(s.bookings[i]))
    && Disjoint(s.bookings)
  }

  /** A time line that `strptime` either rejects or that is already in canonical form. */
  predicate Admissible(text: string) {
    Parse(text).None? || Canonical(text)
  }

  /** The instant a stored or typed time stands for. */
  function Instant(text: string): (t: DateTime)
    requires Parse(text).Some?
  {
    Parse(text).value
  }

  /** Two bookings of one room whose `datetime` ranges share an instant. */
  predicate Clash(a: Booking, b: Booking)
    requires TimesValid(a.start, a.end) && TimesValid(b.start, b.end)
  {
    a.room == b.room && Before(Instant(a.start), Instant(b.end)) && Before(Instant(b.start), Instant(a.end))
  }

  lemma EmptyValid()
    ensures Valid(Empty)
  {
  }

  /** On canonical text the flow's validation (main.py:73-75) accepts exactly the stored ranges. */
  lemma TimesValidIsRange(start: string, end: string)
    requires Canonical(start) && Canonical(end)
    ensures TimesValid(start, end) <==> Range(start, end)
    ensures Range(start, end) ==> Instant(start) == CanonicalFields(start) && Instant(end) == CanonicalFields(end)
  {
    ParseCanonical(start);
    ParseCanonical(end);
  }

  /** A stored booking's text range is non-empty. */
  lemma WellFormedText(b: Booking)
    requires WellFormed(b)
    ensures Lt(b.start, b.end)
  {
    CanonicalOrder(b.start, b.end);
  }

  /**
   * The pre-check alone keeps stored ranges disjoint in text order, whatever
   * form the typed times take: every intersecting booking trips a clause.
   */
  lemma BookKeepsDisjoint(s: Store, input: BookInput)
    requires Linked(s) && Disjoint(s.bookings)
    ensures Disjoint(BookRoom(s, input).store.bookings)
  {
    var t := BookRoom(s, input);
    if t.outcome.Booked? {
      var bs := s.bookings;
      var nb := t.store.bookings[|bs|];
      assert t.store.bookings == bs + [nb];
      forall i | 0 <= i < |bs|
        ensures !Overlap(bs[i], nb)
      {
        IntersectionIsConflict(bs[i].start, bs[i].end, nb.start, nb.end);
      }
      forall i, j | 0 <= i < j < |t.store.bookings|
        ensures !Overlap(t.store.bookings[i], t.store.bookings[j])
      {
        if j < |bs| {
          assert t.store.bookings[i] == bs[i] && t.store.bookings[j] == bs[j];
        } else {
          assert t.store.bookings[i] == bs[i];
        }
      }
    }
  }

  lemma BookKeepsLinked(s: Store, input: BookInput)
    requires Linked(s)
    ensures Linked(BookRoom(s, input).store)
  {
    var t := BookRoom(s, input);
    if t.outcome.Booked? {
      var u := t.outcome.user;
      forall i | 0 <= i < |t.store.bookings|
        ensures HasUser(t.store.users, t.store.bookings[i].userId)
      {
        if i < |s.bookings| {
          assert t.store.bookings[i] == s.bookings[i];
          var k :| 0 <= k < |s.users| && s.users[k].id == s.bookings[i].userId;
          if !EmailTaken(s.users, input.email) {
            assert t.store.users[k] == s.users[k];
          }
        } else {
          var k :| 0 <= k < |t.store.users| && t.store.users[k] == u;
        }
      }
    }
  }

  /**
   * The main invariant: from a valid store, a booking attempt whose time lines
   * are canonical whenever they parse leaves a valid store. Bookings already
   * stored are kept as they are.
   */
  lemma BookPreservesValid(s: Store, input: BookInput)
    requires Valid(s)
    requires Admissible(input.start) && Admissible(input.end)
    ensures Valid(BookRoom(s, input).store)
    ensures BookRoom(s, input).store.bookings[..|s.bookings|] == s.bookings
  {
    var t := BookRoom(s, input);
    BookKeepsDisjoint(s, input);
    BookKeepsLinked(s, input);
    if t.outcome.Booked? {
      ResolvePreservesUnique(s.users, input.email, input.name, input.phone);
      var nb := t.store.bookings[|s.bookings|];
      TimesValidIsRange(nb.start, nb.end);
      assert WellFormed(nb);
      forall i | 0 <= i < |t.store.bookings|
        ensures WellFormed(t.store.bookings[i])
      {
        if i < |s.bookings| {
          assert t.store.bookings[i] == s.bookings[i];
        }
      }
    }
  }

  /** In a valid store no two bookings of a room share an instant, in `datetime` terms. */
  lemma NoDoubleBooking(s: Store, i: int, j: int)
    requires Valid(s)
    requires 0 <= i < j < |s.bookings|
    ensures WellFormed(s.bookings[i]) && WellFormed(s.bookings[j])
    ensures !Clash(s.bookings[i], s.bookings[j])
  {
    var a, b := s.bookings[i], s.bookings[j];
    assert !Overlap(a, b);
    TimesValidIsRange(a.start, a.end);
    TimesValidIsRange(b.start, b.end);
    CanonicalOrder(a.start, b.end);
    CanonicalOrder(b.start, a.end);
  }

  /**
   * For canonical times the three-clause test, applied to a stored booking
   * and a valid request, is exactly `datetime` intersection.
   */
  lemma ConflictIsClash(b: Booking, start: string, end: string)
    requires WellFormed(b)
    requires Range(start, end)
    ensures ClauseConflict(b.start, b.end, start, end) <==>
      Before(CanonicalFields(b.start), CanonicalFields(end)) && Before(CanonicalFields(start), CanonicalFields(b.end))
  {
    CanonicalOrder(start, end);
    CanonicalOrder(b.start, b.end);
    CanonicalOrder(b.start, end);
    CanonicalOrder(start, b.end);
    ConflictMatchesIntersection(b.start, b.end, start, end);
  }

  /**
   * On a valid store a well-formed request is refused as occupied exactly
   * when some booking of the room intersects it: `[x, y)` against `[a, b)`
   * is refused iff `x < b` and `y > a`.
   */
  lemma BookRefusesExactlyOverlaps(s: Store, input: BookInput)
    requires Valid(s)
    requires RoomOk(input.room) && Range(input.start, input.end)
    ensures BookRoom(s, input).outcome.Occupied? <==>
      exists i :: 0 <= i < |s.bookings| && s.bookings[i].room == ParseInt(input.room).value
        && Intersects(s.bookings[i].start, s.bookings[i].end, input.start, input.end)
  {
    var room := ParseInt(input.room).value;
    TimesValidIsRange(input.start, input.end);
    CanonicalOrder(input.start, input.end);
    forall i | 0 <= i < |s.bookings|
      ensures ClauseConflict(s.bookings[i].start, s.bookings[i].end, input.start, input.end)
        <==> Intersects(s.bookings[i].start, s.bookings[i].end, input.start, input.end)
    {
      WellFormedText(s.bookings[i]);
      ConflictMatchesIntersection(s.bookings[i].start, s.bookings[i].end, input.start, input.end);
    }
  }

  /** For canonical times the point test is `start <= t < end` on `datetime`s. */
  lemma OccupiesIsChronological(b: Booking, time: string)
    requires WellFormed(b)
    requires Stamp(time)
    ensures Occupies(b.start, b.end, time) <==>
      !Before(CanonicalFields(time), CanonicalFields(b.start)) && Before(CanonicalFields(time), CanonicalFields(b.end))
  {
    CanonicalOrder(b.start, time);
    CanonicalOrder(time, b.end);
    CanonicalOrder(time, b.start);
    NotLtIsLe(b.start, time);
  }

  /**
   * The room check at a stored booking's start reports the room occupied; the
   * booking's own end instant is outside it (the range is half-open).
   */
  lemma CheckAtStartIsOccupied(s: Store, i: int)
    requires Valid(s)
    requires 0 <= i < |s.bookings|
    ensures CheckRoom(s, Decimal(s.bookings[i].room), s.bookings[i].start).Occupied?
    ensures !Occupies(s.bookings[i].start, s.bookings[i].end, s.bookings[i].end)
  {
    var b := s.bookings[i];
    ParseIntDecimal(b.room);
    WellFormedText(b);
    OccupiesHalfOpen(b.start, b.end);
    assert OccupiedAt(s, b.room, b.start);
  }

  /** In a valid store at most one booking of a room holds any instant, so the check's answer is unique. */
  lemma OccupantIsUnique(s: Store, i: int, j: int, time: string)
    requires Valid(s)
    requires 0 <= i < j < |s.bookings| && s.bookings[i].room == s.bookings[j].room
    ensures !(Occupies(s.bookings[i].start, s.bookings[i].end, time)
              && Occupies(s.bookings[j].start, s.bookings[j].end, time))
  {
    var a, b := s.bookings[i], s.bookings[j];
    assert !Overlap(a, b);
    if Occupies(a.start, a.end, time) && Occupies(b.start, b.end, time) {
      LtLeTransitive(a.start, time, b.end);
      LtLeTransitive(b.start, time, a.end);
    }
  }

  /**
   * A time line as the booking flow evidently means to store it: the
   * canonical text of the `datetime` it parses to. A line that does not
   * parse is kept, so the validation still rejects it.
   */
  function Normalize(text: string): (r: string)
    ensures Parse(r) == Parse(text)
    ensures Parse(text).Some? ==> Canonical(r)
  {
    if Parse(text).Some? then
      var t := Parse(text).value;
      ParseFormat(t);
      Format(t)
    else text
  }

  /**
   * The booking flow with both time lines normalized before they are
   * validated, compared and stored: it rejects exactly the times the flow
   * as written rejects, and stores only canonical text.
   */
  function BookNormalized(s: Store, input: BookInput): (t: Transition)
    ensures t.outcome.InvalidTimes? <==> RoomOk(input.room) && !TimesValid(input.start, input.end)
    ensures t.outcome.Booked? ==> TimesValid(input.start, input.end)
    ensures t.outcome.Booked? ==> Canonical(Normalize(input.start)) && Canonical(Normalize(input.end))
  {
    var normalized := input.(start := Normalize(input.start), end := Normalize(input.end));
    assert TimesValid(normalized.start, normalized.end) == TimesValid(input.start, input.end);
    var t := BookRoom(s, normalized);
    assert t.outcome.Booked? ==> Parse(input.start).Some? && Parse(input.end).Some?;
    t
  }

  /** A normalized booking appends the canonical texts of the typed times. */
  lemma NormalizedBookingStoresStamps(s: Store, input: BookInput)
    ensures var t := BookNormalized(s, input);
      t.outcome.Booked? ==>
        t.store.bookings == s.bookings
          + [Booking(ParseInt(input.room).value, Normalize(input.start), Normalize(input.end), t.outcome.user.id)]
  {
    var normalized := input.(start := Normalize(input.start), end := Normalize(input.end));
    var t := BookRoom(s, normalized);
    assert BookNormalized(s, input) == t;
    if t.outcome.Booked? {
      assert ParseInt(normalized.room) == ParseInt(input.room);
    }
  }

  /** With normalized times the invariant holds for every input, typed in any form `strptime` accepts. */
  lemma NormalizedBookingPreservesValid(s: Store, input: BookInput)
    requires Valid(s)
    ensures Valid(BookNormalized(s, input).store)
  {
    BookPreservesValid(s, input.(start := Normalize(input.start), end := Normalize(input.end)));
  }

  /** A well-formed booking of `room` that shares an instant with `[x, y)` in `datetime` terms. */
  predicate ClashesWith(s: Store, room: int, x: DateTime, y: DateTime) {
    exists i :: 0 <= i < |s.bookings| && s.bookings[i].room == room && WellFormed(s.bookings[i])
      && Before(CanonicalFields(s.bookings[i].start), y) && Before(x, CanonicalFields(s.bookings[i].end))
  }

  /**
   * With normalized time lines, a valid request is refused as occupied
   * exactly when a booking of the room shares an instant with it in
   * `datetime` terms, whatever form the times were typed in.
   */
  lemma NormalizedRefusesExactlyOverlaps(s: Store, input: BookInput)
    requires Valid(s)
    requires RoomOk(input.room) && TimesValid(input.start, input.end)
    ensures BookNormalized(s, input).outcome.Occupied? <==>
      ClashesWith(s, ParseInt(input.room).value, Parse(input.start).value, Parse(input.end).value)
  {
    var normalized := input.(start := Normalize(input.start), end := Normalize(input.end));
    var room := ParseInt(input.room).value;
    assert normalized.room == input.room;
    NormalizedIsRange(input.start, input.end);
    BookRefusesExactlyOverlaps(s, normalized);
    assert BookNormalized(s, input).outcome.Occupied? <==>
      exists i :: 0 <= i < |s.bookings| && s.bookings[i].room == room
        && Intersects(s.bookings[i].start, s.bookings[i].end, normalized.start, normalized.end);
    NormalizedClashes(s, room, input.start, input.end);
  }

  /** Text intersection with the normalized range is a `datetime` clash with the typed one. */
  lemma NormalizedClashes(s: Store, room: int, start: string, end: string)
    requires forall i :: 0 <= i < |s.bookings| ==> WellFormed(s.bookings[i])
    requires TimesValid(start, end)
    ensures ClashesWith(s, room, Parse(start).value, Parse(end).value) <==>
      exists i :: 0 <= i < |s.bookings| && s.bookings[i].room == room
        && Intersects(s.bookings[i].start, s.bookings[i].end, Normalize(start), Normalize(end))
  {
    forall i | 0 <= i < |s.bookings|
      ensures Intersects(s.bookings[i].start, s.bookings[i].end, Normalize(start), Normalize(end)) <==>
        Before(CanonicalFields(s.bookings[i].start), Parse(end).value)
        && Before(Parse(start).value, CanonicalFields(s.bookings[i].end))
    {
      NormalizedIntersection(s.bookings[i], start, end);
    }
  }

  /** Valid time lines normalize to a stamp range spelling the parsed instants. */
  lemma NormalizedIsRange(start: string, end: string)
    requires TimesValid(start, end)
    ensures Range(Normalize(start), Normalize(end))
    ensures CanonicalFields(Normalize(start)) == Parse(start).value
    ensures CanonicalFields(Normalize(end)) == Parse(end).value
  {
    ParseCanonical(Normalize(start));
    ParseCanonical(Normalize(end));
  }

  /** Against a stored booking, the text intersection of normalized times is `datetime` intersection. */
  lemma NormalizedIntersection(b: Booking, start: string, end: string)
    requires WellFormed(b) && TimesValid(start, end)
    ensures Intersects(b.start, b.end, Normalize(start), Normalize(end)) <==>
      Before(CanonicalFields(b.start), Parse(end).value) && Before(Parse(start).value, CanonicalFields(b.end))
  {
    NormalizedIsRange(start, end);
    CanonicalOrder(b.start, Normalize(end));
    CanonicalOrder(Normalize(start), b.end);
  }

  /** The room check with the time line normalized before the point query. */
  function CheckNormalized(s: Store, room: string, time: string): (o: Outcome)
    ensures o.InvalidDate? <==> RoomOk(room) && Parse(time).None?
  {
    CheckRoom(s, room, Normalize(time))
  }

  /**
   * On a valid store the normalized check reports the room occupied exactly
   * when a booking of the room holds the instant in `datetime` terms.
   */
  lemma NormalizedCheckIsChronological(s: Store, room: string, time: string)
    requires Valid(s) && RoomOk(room) && Parse(time).Some?
    ensures CheckNormalized(s, room, time).Occupied? <==>
      exists i :: 0 <= i < |s.bookings| && s.bookings[i].room == ParseInt(room).value
        && !Before(Parse(time).value, CanonicalFields(s.bookings[i].start))
        && Before(Parse(time).value, CanonicalFields(s.bookings[i].end))
  {
    var t := Normalize(time);
    ParseCanonical(t);
    forall i | 0 <= i < |s.bookings|
      ensures Occupies(s.bookings[i].start, s.bookings[i].end, t) <==>
        !Before(Parse(time).value, CanonicalFields(s.bookings[i].start))
        && Before(Parse(time).value, CanonicalFields(s.bookings[i].end))
    {
      OccupiesIsChronological(s.bookings[i], t);
    }
  }
}

=== FILE: scenarios.dfy ===
/**
 * Concrete runs of the flows on a small database: Alice books room 3 from
 * 10:00 to 11:00 and the flows are exercised around that booking; an
 * over-long room line; and the unpadded-input run that shows why the
 * invariant needs canonical time text.
 */
module Scenarios {
  import opened Wrappers
  import opened TextOrder
  import opened Timestamps
  import PyInt
  import opened Chars
  import UserDirectory
  import opened Schema
  import opened Intervals
  import opened Availability
  import opened BookingFlow
  import opened Safety

  const Ten := DateTime(2024, 1, 1, 10, 0)
  const HalfPastTen := DateTime(2024, 1, 1, 10, 30)
  const Eleven := DateTime(2024, 1, 1, 11, 0)

  const Alice := User(1, "Alice", "a@x.com", "555-1")
  const AliceRequest := BookInput("3", Format(Ten), Format(Eleven), "a@x.com", "Alice", "555-1")

  /** The database after Alice's first booking. */
  const AfterA := Store([Alice], [Booking(3, Format(Ten), Format(Eleven), 1)])

  lemma AliceTimes()
    ensures Parse(Format(Ten)) == Some(Ten) && Parse(Format(Eleven)) == Some(Eleven)
    ensures Lt(Format(Ten), Format(Eleven))
  {
    ParseFormat(Ten);
    ParseFormat(Eleven);
    FormatOrder(Ten, Eleven);
  }

  /** The first booking on an empty database succeeds and creates Alice. */
  lemma FirstBookingCreatesUser()
    ensures BookRoom(Empty, AliceRequest) == Transition(Booked(Alice), AfterA)
  {
    AliceTimes();
    assert PyInt.ParseInt("3") == Some(3);
    assert UserDirectory.FreshId([]) == 1;
  }

  /** On a database holding Alice and one booking of hers, a query whose test keeps the booking reports her. */
  lemma QueryFindsAlice(b: Booking, hit: Booking -> bool)
    requires b.userId == 1 && hit(b)
    ensures FirstRow([Alice], [b], b.room, hit) == Some(Occupant("Alice", b.end))
  {
    assert UserDirectory.FindById([Alice], 1) == Some(Alice);
  }

  /** ... and a query whose test drops it reports nothing. */
  lemma QueryMissesAlice(b: Booking, hit: Booking -> bool)
    requires !hit(b)
    ensures FirstRow([Alice], [b], b.room, hit) == None
  {
  }

  /** The same room and times for another user are refused, naming Alice. */
  lemma SameSlotRefused()
    ensures BookRoom(AfterA, BookInput("3", Format(Ten), Format(Eleven), "b@x.com", "Bob", "555-2"))
      == Transition(Occupied("Alice", Format(Eleven)), AfterA)
  {
    var start, end := Format(Ten), Format(Eleven);
    AliceTimes();
    assert PyInt.ParseInt("3") == Some(3);
    assert ClauseConflict(start, end, start, end);
    QueryFindsAlice(AfterA.bookings[0], (b: Booking) => ClauseConflict(b.start, b.end, start, end));
  }

  /** A check inside Alice's booking reports her and the end of her booking. */
  lemma CheckInsideBooking()
    ensures CheckRoom(AfterA, "3", Format(HalfPastTen)) == Occupied("Alice", Format(Eleven))
  {
    var t := Format(HalfPastTen);
    ParseFormat(HalfPastTen);
    FormatOrder(Ten, HalfPastTen);
    FormatOrder(HalfPastTen, Eleven);
    assert PyInt.ParseInt("3") == Some(3);
    assert Occupies(Format(Ten), Format(Eleven), t);
    QueryFindsAlice(AfterA.bookings[0], (b: Booking) => Occupies(b.start, b.end, t));
  }

  /** A check at the exact end of Alice's booking finds the room free. */
  lemma CheckAtEndIsFree()
    ensures CheckRoom(AfterA, "3", Format(Eleven)) == Free
  {
    var t := Format(Eleven);
    AliceTimes();
    assert PyInt.ParseInt("3") == Some(3);
    OccupiesHalfOpen(Format(Ten), t);
    QueryMissesAlice(AfterA.bookings[0], (b: Booking) => Occupies(b.start, b.end, t));
  }

  /** Room 9 is refused by both flows before anything else is read. */
  lemma RoomNineRejected(s: Store, time: string, input: BookInput)
    requires input.room == "9"
    ensures CheckRoom(s, "9", time) == InvalidRoom
    ensures BookRoom(s, input) == Transition(InvalidRoom, s)
  {
    assert PyInt.ParseInt("9") == Some(9);
  }

  /** A room line of 4300 zeros and then `3`: its value is a room, but it has too many digits. */
  const OverlongRoom := seq(PyInt.MaxStrDigits, _ => '0') + "3"

  /** `int()` raises on the over-long line, so both flows report invalid input and nothing is written. */
  lemma OverlongRoomRejected(s: Store, time: string, input: BookInput)
    requires input.room == OverlongRoom
    ensures CheckRoom(s, OverlongRoom, time) == InvalidInput
    ensures BookRoom(s, input) == Transition(InvalidInput, s)
  {
    assert forall i :: 0 <= i < |OverlongRoom| ==> IsDigit(OverlongRoom[i]);
    PyInt.OverlongIsNotInt(OverlongRoom);
  }

  /** The text of `t` typed with the hour's leading zero left out, as in "2024-01-01 9:00". */
  function UnpaddedHour(t: DateTime): (r: string)
    requires ValidDateTime(t) && t.hour < 10
  {
    Pad2(t.year / 100) + Pad2(t.year % 100) + Sep2('-', t.month) + Sep2('-', t.day)
      + [' ', DigitChar(t.hour)] + Sep2(':', t.minute)
  }

  /** `strptime` accepts the unpadded hour and reads the same `datetime`. */
  lemma UnpaddedHourParses(t: DateTime)
    requires ValidDateTime(t) && t.hour < 10
    ensures Parse(UnpaddedHour(t)) == Some(t)
  {
    var s := UnpaddedHour(t);
    assert |s| == 15;
    assert YearPrefix(s);
    assert Two(s[0], s[1]) == t.year / 100 && Two(s[2], s[3]) == t.year % 100;
    assert Field(s, 5) == Some(Span(t.month, 7));
    assert Field(s, 8) == Some(Span(t.day, 10));
    assert Field(s, 11) == Some(Span(t.hour, 12));
    assert Field(s, 13) == Some(Span(t.minute, 15));
  }

  const Nine := DateTime(2024, 1, 1, 9, 0)

  const HalfPastNine := DateTime(2024, 1, 1, 9, 30)
  const QuarterToTen := DateTime(2024, 1, 1, 9, 45)

  const Unpadded := BookInput("1", UnpaddedHour(Nine), Format(Ten), "a@x.com", "Alice", "555-1")
  const AfterUnpadded := Store([Alice], [Booking(1, UnpaddedHour(Nine), Format(Ten), 1)])
  const Padded := BookInput("1", Format(HalfPastNine), Format(QuarterToTen), "b@x.com", "Bob", "555-2")

  lemma UnpaddedAccepted()
    ensures BookRoom(Empty, Unpadded) == Transition(Booked(Alice), AfterUnpadded)
  {
    UnpaddedHourParses(Nine);
    ParseFormat(Ten);
    assert PyInt.ParseInt("1") == Some(1);
    assert UserDirectory.FreshId([]) == 1;
  }

  /** In text order an unpadded "9:mm" sorts after every "09:.." and "10:.." of that day. */
  lemma UnpaddedSortsLate(n: DateTime, t: DateTime)
    requires ValidDateTime(n) && n.year == 2024 && n.month == 1 && n.day == 1 && n.hour == 9
    requires ValidDateTime(t) && t.year == 2024 && t.month == 1 && t.day == 1
    requires t.hour == 9 || t.hour == 10
    ensures !Lt(UnpaddedHour(n), Format(t))
    ensures UnpaddedHour(n) != Format(t)
  {
    var u, f := UnpaddedHour(n), Format(t);
    assert u[..11] == f[..11];
    assert u[11] == '9' && f[11] == DigitChar(t.hour / 10);
    LtAtFirstDifference(u, f, 11);
  }

  /** ... and the canonical "10:00" sorts after "09:45". */
  lemma PaddedMissesUnpadded()
    ensures !ClauseConflict(UnpaddedHour(Nine), Format(Ten), Format(HalfPastNine), Format(QuarterToTen))
  {
    UnpaddedSortsLate(Nine, HalfPastNine);
    UnpaddedSortsLate(Nine, QuarterToTen);
    FormatOrder(Ten, QuarterToTen);
    FormatOrder(QuarterToTen, Ten);
  }

  const Bob := User(2, "Bob", "b@x.com", "555-2")
  const AfterPadded := Store([Alice, Bob], AfterUnpadded.bookings + [Booking(1, Format(HalfPastNine), Format(QuarterToTen), 2)])

  lemma PaddedFindsNoConflict()
    ensures FindConflict(AfterUnpadded, 1, Format(HalfPastNine), Format(QuarterToTen)) == None
  {
    var start, end := Format(HalfPastNine), Format(QuarterToTen);
    PaddedMissesUnpadded();
    var hit := (b: Booking) => ClauseConflict(b.start, b.end, start, end);
    assert !hit(AfterUnpadded.bookings[0]);
  }

  lemma BobIsCreated()
    ensures UserDirectory.ResolveUser(AfterUnpadded.users, "b@x.com", "Bob", "555-2")
      == Success(([Alice, Bob], Bob))
  {
    assert AfterUnpadded.users[1..] == [];
    assert UserDirectory.MaxId(AfterUnpadded.users[1..]) == 0;
    assert UserDirectory.MaxId(AfterUnpadded.users) == 1;
    assert !EmailTaken(AfterUnpadded.users, "b@x.com") && !PhoneTaken(AfterUnpadded.users, "555-2");
    assert UserDirectory.FindByEmail(AfterUnpadded.users, "b@x.com") == None;
    assert AfterUnpadded.users + [Bob] == [Alice, Bob];
    assert UserDirectory.CreateUser(AfterUnpadded.users, "Bob", "b@x.com", "555-2") == Success(([Alice, Bob], 2));
  }

  lemma PaddedAccepted()
    ensures BookRoom(AfterUnpadded, Padded) == Transition(Booked(Bob), AfterPadded)
  {
    ParseFormat(HalfPastNine);
    ParseFormat(QuarterToTen);
    FormatOrder(HalfPastNine, QuarterToTen);
    assert PyInt.ParseInt("1") == Some(1);
    PaddedFindsNoConflict();
    BobIsCreated();
  }

  /** The two bookings of room 1 left by the unpadded and the padded request share 09:30 to 09:45. */
  lemma AfterPaddedClashes()
    ensures var bs := AfterPadded.bookings;
      |bs| == 2 && TimesValid(bs[0].start, bs[0].end) && TimesValid(bs[1].start, bs[1].end)
      && Clash(bs[0], bs[1])
  {
    UnpaddedHourParses(Nine);
    ParseFormat(Ten);
    ParseFormat(HalfPastNine);
    ParseFormat(QuarterToTen);
    var b0 := Booking(1, UnpaddedHour(Nine), Format(Ten), 1);
    var b1 := Booking(1, Format(HalfPastNine), Format(QuarterToTen), 2);
    assert AfterPadded.bookings == [b0, b1];
    assert Instant(b0.start) == Nine && Instant(b0.end) == Ten;
    assert Instant(b1.start) == HalfPastNine && Instant(b1.end) == QuarterToTen;
    assert Clash(b0, b1);
  }

  /**
   * Why canonical input is a precondition of `BookPreservesValid`: a booking
   * typed as "9:00" to "10:00" is accepted (`UnpaddedAccepted`), yet in text
   * order its start sorts after the padded "09:30", so a later 09:30-09:45
   * request passes the pre-check too (`PaddedAccepted`), and the two stored
   * bookings of room 1 share the minutes from 09:30 to 09:45.
   */
  lemma UnpaddedInputDoubleBooks()
    ensures var bs := BookRoom(BookRoom(Empty, Unpadded).store, Padded).store.bookings;
      |bs| == 2 && TimesValid(bs[0].start, bs[0].end) && TimesValid(bs[1].start, bs[1].end)
      && Clash(bs[0], bs[1])
  {
    UnpaddedAccepted();
    PaddedAccepted();
    AfterPaddedClashes();
  }

  /** With normalized time lines the unpadded request stores the canonical "09:00" to "10:00". */
  const NormalizedAfterUnpadded := Store([Alice], [Booking(1, Format(Nine), Format(Ten), 1)])

  lemma UnpaddedNormalizedAccepted()
    ensures BookNormalized(Empty, Unpadded) == Transition(Booked(Alice), NormalizedAfterUnpadded)
  {
    UnpaddedHourParses(Nine);
    ParseFormat(Nine);
    ParseFormat(Ten);
    FormatOrder(Nine, Ten);
    assert Normalize(Unpadded.start) == Format(Nine) && Normalize(Unpadded.end) == Format(Ten);
    assert PyInt.ParseInt("1") == Some(1);
    assert UserDirectory.FreshId([]) == 1;
  }

  /**
   * ... so the padded 09:30-09:45 request that follows, in the run of
   * `UnpaddedInputDoubleBooks`, now trips the pre-check and is refused,
   * naming Alice, with nothing stored.
   */
  lemma NormalizedRefusesPadded()
    ensures BookNormalized(NormalizedAfterUnpadded, Padded)
      == Transition(Occupied("Alice", Format(Ten)), NormalizedAfterUnpadded)
  {
    var start, end := Format(HalfPastNine), Format(QuarterToTen);
    ParseFormat(HalfPastNine);
    ParseFormat(QuarterToTen);
    FormatOrder(HalfPastNine, QuarterToTen);
    FormatOrder(Nine, QuarterToTen);
    FormatOrder(HalfPastNine, Ten);
    assert Normalize(Padded.start) == start && Normalize(Padded.end) == end;
    assert PyInt.ParseInt("1") == Some(1);
    IntersectionIsConflict(Format(Nine), Format(Ten), start, end);
    QueryFindsAlice(NormalizedAfterUnpadded.bookings[0], (b: Booking) => ClauseConflict(b.start, b.end, start, end));
  }

  /** The text comparison also refuses requests it should accept: Alice holds room 3 from 10:00 to midnight. */
  const Midnight := DateTime(2024, 1, 2, 0, 0)
  const TenToMidnight := Store([Alice], [Booking(3, Format(Ten), Format(Midnight), 1)])
  const EarlyRequest := BookInput("3", UnpaddedHour(Nine), UnpaddedHour(HalfPastNine), "b@x.com", "Bob", "555-2")

  /** "10:00" sorts before "9:30", and "2024-01-01 9:00" before "2024-01-02 00:00", so the ranges intersect as text. */
  lemma EarlyRequestTripsClause()
    ensures ClauseConflict(Format(Ten), Format(Midnight), UnpaddedHour(Nine), UnpaddedHour(HalfPastNine))
  {
    var es, ee, ns, ne := Format(Ten), Format(Midnight), UnpaddedHour(Nine), UnpaddedHour(HalfPastNine);
    assert es[..11] == ne[..11];
    assert es[11] == DigitChar(1) && ne[11] == '9';
    LtAtFirstDifference(es, ne, 11);
    assert ns[..9] == ee[..9];
    assert ns[9] == DigitChar(1) && ee[9] == DigitChar(2);
    LtAtFirstDifference(ns, ee, 9);
    IntersectionIsConflict(es, ee, ns, ne);
  }

  /**
   * A request typed as "9:00" to "9:30" shares no instant with 10:00 to
   * midnight, yet it is refused as occupied by Alice.
   */
  lemma UnpaddedRequestRefused()
    ensures !(Before(Nine, Midnight) && Before(Ten, HalfPastNine))
    ensures BookRoom(TenToMidnight, EarlyRequest) == Transition(Occupied("Alice", Format(Midnight)), TenToMidnight)
  {
    var ns, ne := UnpaddedHour(Nine), UnpaddedHour(HalfPastNine);
    UnpaddedHourParses(Nine);
    UnpaddedHourParses(HalfPastNine);
    assert PyInt.ParseInt("3") == Some(3);
    EarlyRequestTripsClause();
    QueryFindsAlice(TenToMidnight.bookings[0], (b: Booking) => ClauseConflict(b.start, b.end, ns, ne));
  }

  /** The point query misses too: Alice holds room 3 from 09:00 to 10:00, canonical text. */
  const NineToTen := Store([Alice], [Booking(3, Format(Nine), Format(Ten), 1)])

  /** A check typed as "9:30" falls inside the booking, yet the room is reported free. */
  lemma UnpaddedCheckMisses()
    ensures Before(Nine, HalfPastNine) && Before(HalfPastNine, Ten)
    ensures CheckRoom(NineToTen, "3", UnpaddedHour(HalfPastNine)) == Free
  {
    var t := UnpaddedHour(HalfPastNine);
    UnpaddedHourParses(HalfPastNine);
    assert PyInt.ParseInt("3") == Some(3);
    UnpaddedSortsLate(HalfPastNine, Ten);
    QueryMissesAlice(NineToTen.bookings[0], (b: Booking) => Occupies(b.start, b.end, t));
  }
}

=== FILE: schema.dfy ===
/**
 * The two tables (database.py:12-29) as immutable values: rows of `users`
 * and rows of `booking`. Row order stands for SQLite's natural row order.
 */
module Schema {

  /** A `users` row; `email` and `phone` carry UNIQUE constraints. */
  datatype User = User(id: nat, name: string, email: string, phone: string)

  /** A `booking` row; `start` and `end` are the text exactly as typed. */
  datatype Booking = Booking(room: int, start: string, end: string, userId: nat)

  datatype Store = Store(users: seq<User>, bookings: seq<Booking>)

  /** The IntegrityError an INSERT into `users` raises, by the constraint it breaks. */
  datatype DbError = DuplicateEmail | DuplicatePhone

  /** The freshly created database. */
  const Empty := Store([], [])

  predicate HasUser(users: seq<User>, id: nat) {
    exists i :: 0 <= i < |users| && users[i].id == id
  }

  predicate EmailTaken(users: seq<User>, email: string) {
    exists i :: 0 <= i < |users| && users[i].email == email
  }

  predicate PhoneTaken(users: seq<User>, phone: string) {
    exists i :: 0 <= i < |users| && users[i].phone == phone
  }

  /** The primary key and the two UNIQUE constraints of the `users` table. */
  predicate UniqueUsers(users: seq<User>) {
    forall i, j :: 0 <= i < j < |users| ==>
      && users[i].id != users[j].id
      && users[i].email != users[j].email
      && users[i].phone != users[j].phone
  }

  /** The foreign key: every booking's `user_id` names a user. */
  predicate Linked(s: Store) {
    forall i :: 0 <= i < |s.bookings| ==> HasUser(s.users, s.bookings[i].userId)
  }
}

=== FILE: text_order.dfy ===
/**
 * The order SQLite's default BINARY collation puts on TEXT values: characters
 * are compared left to right and a proper prefix sorts first. The timestamps
 * stored here are ASCII, for which code-point order and UTF-8 byte order agree.
 */
module TextOrder {

  predicate Lt(a: string, b: string)
    decreases |a|
  {
    if |a| == 0 then |b| > 0
    else if |b| == 0 then false
    else if a[0] != b[0] then a[0] < b[0]
    else Lt(a[1..], b[1..])
  }

  predicate Le(a: string, b: string) {
    Lt(a, b) || a == b
  }

  lemma {:induction false} LtIrreflexive(a: string)
    ensures !Lt(a, a)
  {
    if |a| > 0 {
      LtIrreflexive(a[1..]);
    }
  }

  lemma {:induction false} LtTransitive(a: string, b: string, c: string)
    requires Lt(a, b) && Lt(b, c)
    ensures Lt(a, c)
  {
    if |a| > 0 && a[0] == b[0] && b[0] == c[0] {
      LtTransitive(a[1..], b[1..], c[1..]);
    }
  }

  lemma {:induction false} LtTrichotomy(a: string, b: string)
    ensures Lt(a, b) || a == b || Lt(b, a)
  {
    if |a| > 0 && |b| > 0 && a[0] == b[0] {
      LtTrichotomy(a[1..], b[1..]);
      assert a == [a[0]] + a[1..];
      assert b == [b[0]] + b[1..];
    }
  }

  lemma LtAsymmetric(a: string, b: string)
    requires Lt(a, b)
    ensures !Lt(b, a)
  {
    if Lt(b, a) {
      LtTransitive(a, b, a);
      LtIrreflexive(a);
    }
  }

  lemma LtLeTransitive(a: string, b: string, c: string)
    requires (Lt(a, b) && Le(b, c)) || (Le(a, b) && Lt(b, c))
    ensures Lt(a, c)
  {
    if Lt(a, b) && Lt(b, c) {
      LtTransitive(a, b, c);
    }
  }

  /** Not after is the negation of after: `Le` is the complement of the flipped `Lt`. */
  lemma NotLtIsLe(a: string, b: string)
    ensures !Lt(b, a) <==> Le(a, b)
  {
    LtTrichotomy(a, b);
    if Lt(a, b) {
      LtAsymmetric(a, b);
    }
    if a == b {
      LtIrreflexive(a);
    }
  }

  /**
   * Comparing two concatenations whose first parts have the same length
   * compares the first parts, and on a tie the second parts.
   */
  lemma {:induction false} LtConcat(a1: string, a2: string, b1: string, b2: string)
    requires |a1| == |b1|
    ensures Lt(a1 + a2, b1 + b2) <==> Lt(a1, b1) || (a1 == b1 && Lt(a2, b2))
  {
    if |a1| == 0 {
      assert a1 + a2 == a2 && b1 + b2 == b2;
    } else {
      assert (a1 + a2)[0] == a1[0] && (b1 + b2)[0] == b1[0];
      assert (a1 + a2)[1..] == a1[1..] + a2;
      assert (b1 + b2)[1..] == b1[1..] + b2;
      if a1[0] == b1[0] {
        LtConcat(a1[1..], a2, b1[1..], b2);
        assert a1 == [a1[0]] + a1[1..];
        assert b1 == [b1[0]] + b1[1..];
      }
    }
  }

  /** Equal-length first parts: the concatenations are equal exactly when both parts are. */
  lemma EqConcat(a1: string, a2: string, b1: string, b2: string)
    requires |a1| == |b1|
    ensures a1 + a2 == b1 + b2 <==> a1 == b1 && a2 == b2
  {
    if a1 + a2 == b1 + b2 {
      assert a1 == (a1 + a2)[..|a1|];
      assert b1 == (b1 + b2)[..|b1|];
      assert a2 == (a1 + a2)[|a1|..];
      assert b2 == (b1 + b2)[|b1|..];
    }
  }

  /** Strings that agree before index `k` and differ at `k` are ordered by their characters at `k`. */
  lemma {:induction false} LtAtFirstDifference(a: string, b: string, k: nat)
    requires k < |a| && k < |b|
    requires a[..k] == b[..k] && a[k] != b[k]
    ensures Lt(a, b) <==> a[k] < b[k]
  {
    if k > 0 {
      assert a[0] == a[..k][0] && b[0] == b[..k][0];
      assert a[1..][..k - 1] == a[..k][1..] && b[1..][..k - 1] == b[..k][1..];
      LtAtFirstDifference(a[1..], b[1..], k - 1);
    }
  }
}

=== FILE: timestamps.dfy ===
/**
 * Timestamps of the form `%Y-%m-%d %H:%M`. `Parse` models what
 * `datetime.strptime` accepts for that format (main.py:11-15): a four-digit
 * year and one- or two-digit month, day, hour and minute, with a real
 * calendar date. `Format` renders the canonical zero-padded text
 * `YYYY-MM-DD HH:MM`, the form whose text order is chronological order.
 */
module Timestamps {
  import opened Wrappers
  import opened Chars
  import opened TextOrder

  /** A `datetime` with minute precision; compared field by field, year first. */
  datatype DateTime = DateTime(year: int, month: int, day: int, hour: int, minute: int)

  predicate LeapYear(y: int) {
    y % 4 == 0 && (y % 100 != 0 || y % 400 == 0)
  }

  function DaysInMonth(y: int, m: int): (n: int)
    requires 1 <= m <= 12
  {
    if m == 2 then (if LeapYear(y) then 29 else 28)
    else if m == 4 || m == 6 || m == 9 || m == 11 then 30
    else 31
  }

  /** The dates `datetime` can represent (year 1 to 9999) at a valid minute of the day. */
  predicate ValidDateTime(t: DateTime) {
    && 1 <= t.year <= 9999
    && 1 <= t.month <= 12
    && 1 <= t.day <= DaysInMonth(t.year, t.month)
    && 0 <= t.hour < 24
    && 0 <= t.minute < 60
  }

  /** Chronological order: Python compares `datetime`s field by field. */
  predicate Before(x: DateTime, y: DateTime) {
    || x.year < y.year
    || (x.year == y.year && x.month < y.month)
    || (x.year == y.year && x.month == y.month && x.day < y.day)
    || (x.year == y.year && x.month == y.month && x.day == y.day && x.hour < y.hour)
    || (x.year == y.year && x.month == y.month && x.day == y.day && x.hour == y.hour && x.minute < y.minute)
  }

  /** A numeric field read from the text, and the index just after it. */
  datatype Span = Span(value: nat, next: nat)

  /**
   * One or two digits at `i`, read greedily. For the format's `%m`, `%d`,
   * `%H` and `%M` this accepts what the backtracking regular expression of
   * `strptime` accepts: a one-digit reading followed by a second digit is
   * never followed by the separator the format needs next.
   */
  function Field(s: string, i: nat): (r: Option<Span>)
    ensures r.Some? <==> i < |s| && IsDigit(s[i])
    ensures r.Some? ==> i < r.value.next <= |s| && r.value.value < 100
    ensures r.Some? ==> (r.value.next == i + 2 <==> i + 1 < |s| && IsDigit(s[i + 1]))
    ensures r.Some? && r.value.next == i + 2 ==> r.value.value == Two(s[i], s[i + 1])
    ensures r.Some? && r.value.next != i + 2 ==> r.value.next == i + 1 && r.value.value == DigitValue(s[i])
  {
    if i < |s| && IsDigit(s[i]) then
      if i + 1 < |s| && IsDigit(s[i + 1]) then Some(Span(Two(s[i], s[i + 1]), i + 2))
      else Some(Span(DigitValue(s[i]), i + 1))
    else None
  }

  predicate SepAt(s: string, i: nat, c: char) {
    i < |s| && s[i] == c
  }

  predicate YearPrefix(s: string) {
    |s| >= 5 && IsDigit(s[0]) && IsDigit(s[1]) && IsDigit(s[2]) && IsDigit(s[3]) && s[4] == '-'
  }

  /** `strptime(s, '%Y-%m-%d %H:%M')`, with `None` for the `ValueError` main.py:14 catches. */
  function Parse(s: string): (r: Option<DateTime>)
    ensures r.Some? ==> ValidDateTime(r.value)
  {
    if !YearPrefix(s) then None
    else
      var year := 100 * Two(s[0], s[1]) + Two(s[2], s[3]);
      match Field(s, 5)
      case None => None
      case Some(mo) =>
        if !SepAt(s, mo.next, '-') then None else
        match Field(s, mo.next + 1)
        case None => None
        case Some(d) =>
          if !SepAt(s, d.next, ' ') then None else
          match Field(s, d.next + 1)
          case None => None
          case Some(h) =>
            if !SepAt(s, h.next, ':') then None else
            match Field(s, h.next + 1)
            case None => None
            case Some(mi) =>
              if mi.next != |s| then None
              else
                var t := DateTime(year, mo.value, d.value, h.value, mi.value);
                if ValidDateTime(t) then Some(t) else None
  }

  /** The canonical shape `YYYY-MM-DD HH:MM`: sixteen characters, every field zero-padded. */
  predicate Canonical(s: string) {
    && |s| == 16
    && IsDigit(s[0]) && IsDigit(s[1]) && IsDigit(s[2]) && IsDigit(s[3]) && s[4] == '-'
    && IsDigit(s[5]) && IsDigit(s[6]) && s[7] == '-'
    && IsDigit(s[8]) && IsDigit(s[9]) && s[10] == ' '
    && IsDigit(s[11]) && IsDigit(s[12]) && s[13] == ':'
    && IsDigit(s[14]) && IsDigit(s[15])
  }

  /** The fields a canonical string spells out, before any range check. */
  function CanonicalFields(s: string): (t: DateTime)
    requires Canonical(s)
  {
    DateTime(100 * Two(s[0], s[1]) + Two(s[2], s[3]), Two(s[5], s[6]), Two(s[8], s[9]),
             Two(s[11], s[12]), Two(s[14], s[15]))
  }

  /** Canonical text of a valid `datetime`: the only form in which stored times compare correctly. */
  predicate Stamp(s: string) {
    Canonical(s) && ValidDateTime(CanonicalFields(s))
  }

  function Pad2(n: nat): (s: string)
    requires n < 100
  {
    [DigitChar(n / 10), DigitChar(n % 10)]
  }

  /** A separator followed by a two-digit field. */
  function Sep2(c: char, n: nat): (r: string)
    requires n < 100
  {
    [c] + Pad2(n)
  }

  /** The canonical zero-padded text `YYYY-MM-DD HH:MM` of a valid `datetime`. */
  function Format(t: DateTime): (s: string)
    requires ValidDateTime(t)
    ensures Canonical(s)
  {
    Pad2(t.year / 100) + Pad2(t.year % 100) + Sep2('-', t.month) + Sep2('-', t.day)
      + Sep2(' ', t.hour) + Sep2(':', t.minute)
  }

  /** On a canonical string `Parse` reads the fixed two-digit fields and checks their ranges. */
  lemma ParseCanonical(s: string)
    requires Canonical(s)
    ensures Parse(s) == (if Stamp(s) then Some(CanonicalFields(s)) else None)
  {
    assert Field(s, 5) == Some(Span(Two(s[5], s[6]), 7));
    assert Field(s, 8) == Some(Span(Two(s[8], s[9]), 10));
    assert Field(s, 11) == Some(Span(Two(s[11], s[12]), 13));
    assert Field(s, 14) == Some(Span(Two(s[14], s[15]), 16));
  }

  lemma TwoOfPad2(n: nat)
    requires n < 100
    ensures Two(Pad2(n)[0], Pad2(n)[1]) == n
  {
  }

  lemma Pad2OfTwo(a: char, b: char)
    requires IsDigit(a) && IsDigit(b)
    ensures Pad2(Two(a, b)) == [a, b]
  {
    DigitCharOfValue(a);
    DigitCharOfValue(b);
  }

  /** Formatting a valid `datetime` and parsing the text gives the `datetime` back. */
  lemma ParseFormat(t: DateTime)
    requires ValidDateTime(t)
    ensures Parse(Format(t)) == Some(t)
  {
    var s := Format(t);
    ParseCanonical(s);
    TwoOfPad2(t.year / 100);
    TwoOfPad2(t.year % 100);
    TwoOfPad2(t.month);
    TwoOfPad2(t.day);
    TwoOfPad2(t.hour);
    TwoOfPad2(t.minute);
    assert CanonicalFields(s) == t;
  }

  /** A stamp is the canonical text of the `datetime` it spells, so each instant has one stamp. */
  lemma FormatFields(s: string)
    requires Stamp(s)
    ensures Format(CanonicalFields(s)) == s
  {
    var t := CanonicalFields(s);
    Pad2OfTwo(s[0], s[1]);
    Pad2OfTwo(s[2], s[3]);
    Pad2OfTwo(s[5], s[6]);
    Pad2OfTwo(s[8], s[9]);
    Pad2OfTwo(s[11], s[12]);
    Pad2OfTwo(s[14], s[15]);
    assert t.year / 100 == Two(s[0], s[1]) && t.year % 100 == Two(s[2], s[3]);
    assert Format(t) == s;
  }

  /** Two-digit fields: text order is numeric order. */
  lemma Pad2Order(n: nat, m: nat)
    requires n < 100 && m < 100
    ensures Lt(Pad2(n), Pad2(m)) <==> n < m
    ensures Pad2(n) == Pad2(m) <==> n == m
  {
    var p, q := Pad2(n), Pad2(m);
    assert p[1..] == [p[1]] && q[1..] == [q[1]];
    assert [p[1]][1..] == [] && [q[1]][1..] == [];
    assert n < m <==> n / 10 < m / 10 || (n / 10 == m / 10 && n % 10 < m % 10);
    if p == q {
      assert n / 10 == m / 10 && n % 10 == m % 10;
      LtIrreflexive(p);
    }
  }

  lemma Sep2Order(c: char, n: nat, m: nat)
    requires n < 100 && m < 100
    ensures Lt(Sep2(c, n), Sep2(c, m)) <==> n < m
    ensures Sep2(c, n) == Sep2(c, m) <==> n == m
  {
    Pad2Order(n, m);
    assert Sep2(c, n)[1..] == Pad2(n);
    assert Sep2(c, m)[1..] == Pad2(m);
    EqConcat([c], Pad2(n), [c], Pad2(m));
  }

  lemma YearOrder(x: nat, y: nat)
    requires x < 10000 && y < 10000
    ensures Lt(Pad2(x / 100) + Pad2(x % 100), Pad2(y / 100) + Pad2(y % 100)) <==> x < y
    ensures Pad2(x / 100) + Pad2(x % 100) == Pad2(y / 100) + Pad2(y % 100) <==> x == y
  {
    LtConcat(Pad2(x / 100), Pad2(x % 100), Pad2(y / 100), Pad2(y % 100));
    EqConcat(Pad2(x / 100), Pad2(x % 100), Pad2(y / 100), Pad2(y % 100));
    Pad2Order(x / 100, y / 100);
    Pad2Order(x % 100, y % 100);
  }

  /** On valid `datetime`s, the text order of the canonical forms is chronological order. */
  lemma FormatOrder(x: DateTime, y: DateTime)
    requires ValidDateTime(x) && ValidDateTime(y)
    ensures Lt(Format(x), Format(y)) <==> Before(x, y)
  {
    var y1, y2 := Pad2(x.year / 100) + Pad2(x.year % 100), Pad2(y.year / 100) + Pad2(y.year % 100);
    var a1, b1 := y1 + Sep2('-', x.month), y2 + Sep2('-', y.month);
    var a2, b2 := a1 + Sep2('-', x.day), b1 + Sep2('-', y.day);
    var a3, b3 := a2 + Sep2(' ', x.hour), b2 + Sep2(' ', y.hour);
    YearOrder(x.year, y.year);
    Sep2Order('-', x.month, y.month);
    Sep2Order('-', x.day, y.day);
    Sep2Order(' ', x.hour, y.hour);
    Sep2Order(':', x.minute, y.minute);
    LtConcat(y1, Sep2('-', x.month), y2, Sep2('-', y.month));
    EqConcat(y1, Sep2('-', x.month), y2, Sep2('-', y.month));
    LtConcat(a1, Sep2('-', x.day), b1, Sep2('-', y.day));
    EqConcat(a1, Sep2('-', x.day), b1, Sep2('-', y.day));
    LtConcat(a2, Sep2(' ', x.hour), b2, Sep2(' ', y.hour));
    EqConcat(a2, Sep2(' ', x.hour), b2, Sep2(' ', y.hour));
    LtConcat(a3, Sep2(':', x.minute), b3, Sep2(':', y.minute));
  }

  /**
   * On stamps, comparing the raw text (as the SQL queries do) agrees with
   * comparing the `datetime`s they spell (as the validation does), and equal
   * text means equal instants.
   */
  lemma CanonicalOrder(a: string, b: string)
    requires Stamp(a) && Stamp(b)
    ensures Lt(a, b) <==> Before(CanonicalFields(a), CanonicalFields(b))
    ensures a == b <==> CanonicalFields(a) == CanonicalFields(b)
  {
    FormatFields(a);
    FormatFields(b);
    FormatOrder(CanonicalFields(a), CanonicalFields(b));
  }
}

=== FILE: user_directory.dfy ===
/**
 * User lookup and creation (main.py:17-32) and the find-or-create step of
 * the booking flow (main.py:85-98), over the `users` rows.
 */
module UserDirectory {
  import opened Wrappers
  import opened Schema

  /** `SELECT ... FROM users WHERE email = ?` with `fetchone`: the first matching row. */
  function FindByEmail(users: seq<User>, email: string): (r: Option<User>)
    ensures r.None? <==> !EmailTaken(users, email)
    ensures r.Some? ==> r.value in users && r.value.email == email
  {
    if |users| == 0 then None
    else if users[0].email == email then Some(users[0])
    else
      var r := FindByEmail(users[1..], email);
      assert EmailTaken(users[1..], email) ==> EmailTaken(users, email) by {
        if EmailTaken(users[1..], email) {
          var i :| 0 <= i < |users[1..]| && users[1..][i].email == email;
          assert users[i + 1].email == email;
        }
      }
      r
  }

  /** The user row a booking's `user_id` joins to. */
  function FindById(users: seq<User>, id: nat): (r: Option<User>)
    ensures r.None? <==> !HasUser(users, id)
    ensures r.Some? ==> r.value in users && r.value.id == id
  {
    if |users| == 0 then None
    else if users[0].id == id then Some(users[0])
    else
      var r := FindById(users[1..], id);
      assert HasUser(users[1..], id) ==> HasUser(users, id) by {
        if HasUser(users[1..], id) {
          var i :| 0 <= i < |users[1..]| && users[1..][i].id == id;
          assert users[i + 1].id == id;
        }
      }
      r
  }

  function MaxId(users: seq<User>): (m: nat)
    ensures forall i :: 0 <= i < |users| ==> users[i].id <= m
  {
    if |users| == 0 then 0
    else
      var rest := MaxId(users[1..]);
      assert forall i :: 1 <= i < |users| ==> users[i] == users[1..][i - 1];
      if users[0].id > rest then users[0].id else rest
  }

  /** The id AUTOINCREMENT hands out; all the model relies on is that no row has it yet. */
  function FreshId(users: seq<User>): (id: nat)
    ensures !HasUser(users, id)
    ensures id > 0
  {
    MaxId(users) + 1
  }

  /**
   * `INSERT INTO users (name, email, phone)` and `lastrowid`: fails with the
   * UNIQUE constraint that breaks (the model names the email when both
   * break), else appends one row
   * with a fresh id and returns the new table and that id.
   */
  function CreateUser(users: seq<User>, name: string, email: string, phone: string)
    : (r: Result<(seq<User>, nat), DbError>)
    ensures r.Failure? <==> EmailTaken(users, email) || PhoneTaken(users, phone)
    ensures r.Failure? ==> (r.error == DuplicateEmail <==> EmailTaken(users, email))
    ensures r.Success? ==>
      && !HasUser(users, r.value.1)
      && r.value.0 == users + [User(r.value.1, name, email, phone)]
  {
    if FindByEmail(users, email).Some? then Failure(DuplicateEmail)
    else if PhoneTaken(users, phone) then Failure(DuplicatePhone)
    else
      var id := FreshId(users);
      Success((users + [User(id, name, email, phone)], id))
  }

  /**
   * The booking flow's user step: the row with that email if there is one,
   * else a new user from the name and phone the flow then asks for.
   */
  function ResolveUser(users: seq<User>, email: string, name: string, phone: string)
    : (r: Result<(seq<User>, User), DbError>)
    ensures EmailTaken(users, email) ==>
      r.Success? && r.value.0 == users && r.value.1 in users && r.value.1.email == email
    ensures !EmailTaken(users, email) ==>
      && (r.Failure? <==> PhoneTaken(users, phone))
      && (r.Failure? ==> r.error == DuplicatePhone)
      && (r.Success? ==>
            && r.value.1 == User(r.value.1.id, name, email, phone)
            && !HasUser(users, r.value.1.id)
            && r.value.0 == users + [r.value.1])
  {
    match FindByEmail(users, email)
    case Some(u) => Success((users, u))
    case None =>
      match CreateUser(users, name, email, phone)
      case Failure(e) => Failure(e)
      case Success((users', id)) => Success((users', User(id, name, email, phone)))
  }

  /** Creating a user keeps the primary key and both UNIQUE constraints. */
  lemma CreatePreservesUnique(users: seq<User>, name: string, email: string, phone: string)
    requires UniqueUsers(users)
    requires CreateUser(users, name, email, phone).Success?
    ensures UniqueUsers(CreateUser(users, name, email, phone).value.0)
  {
    var (users', id) := CreateUser(users, name, email, phone).value;
    forall i, j | 0 <= i < j < |users'|
      ensures users'[i].id != users'[j].id
      ensures users'[i].email != users'[j].email
      ensures users'[i].phone != users'[j].phone
    {
      if j == |users| {
        assert users'[i] == users[i];
      }
    }
  }

  /** Looking the email up after creating the user returns exactly the row created. */
  lemma {:induction false} CreatedUserIsFound(users: seq<User>, name: string, email: string, phone: string)
    requires CreateUser(users, name, email, phone).Success?
    ensures var (users', id) := CreateUser(users, name, email, phone).value;
      FindByEmail(users', email) == Some(User(id, name, email, phone))
  {
    var (users', id) := CreateUser(users, name, email, phone).value;
    FindAfterAppend(users, User(id, name, email, phone));
  }

  lemma {:induction false} FindAfterAppend(users: seq<User>, u: User)
    requires !EmailTaken(users, u.email)
    ensures FindByEmail(users + [u], u.email) == Some(u)
  {
    if |users| > 0 {
      assert (users + [u])[1..] == users[1..] + [u];
      FindAfterAppend(users[1..], u);
    }
  }

  /** Find-or-create keeps the constraints of the `users` table. */
  lemma ResolvePreservesUnique(users: seq<User>, email: string, name: string, phone: string)
    requires UniqueUsers(users)
    requires ResolveUser(users, email, name, phone).Success?
    ensures UniqueUsers(ResolveUser(users, email, name, phone).value.0)
  {
    if !EmailTaken(users, email) {
      CreatePreservesUnique(users, name, email, phone);
    }
  }

  /** With unique emails, the row found by email is the only row with that email. */
  lemma FoundUserIsUnique(users: seq<User>, email: string, i: int)
    requires UniqueUsers(users)
    requires 0 <= i < |users| && users[i].email == email
    ensures FindByEmail(users, email) == Some(users[i])
  {
    var u := FindByEmail(users, email).value;
    var k :| 0 <= k < |users| && users[k] == u;
  }
}

=== FILE: wrappers.dfy ===
/** The Option and Result datatypes used throughout the model. */
module Wrappers {

  /** A value that may be absent: a row `fetchone` did not find, a string `strptime` rejected. */
  datatype Option<+T> = None | Some(value: T)

  /** The result of a storage operation that may raise an error. */
  datatype Result<+R, +E> = Success(value: R) | Failure(error: E)
}
